=== FILE: README.md ===
# web3lancer identity and session logic, in Dafny

This project models the decision logic of the web3lancer front end. That logic sits between the user interface and the hosted identity/database backend (Appwrite). The model covers:

- the session-recovery ladder and the account/session helpers of `src/utils/api.ts`;
- the profile and bookmark upserts of the same file;
- its `safeGetDocument`/`safeListDocuments` wrappers;
- the guest-session fallback;
- the auth context's account transitions;
- the sign-up page's branching;
- the payment orchestration;
- the notification-preference records.

The backend is modelled as an oracle. Each operation takes the replies its SDK calls would get (`Reply<T> = Ok(value) | Fail(code)`). It returns its result together with the trace of SDK calls it made. This lets properties such as "makes no create call" or "only the first listed session is refreshed" be stated and proved.

The profiles and bookmarks collections are real stores:

- profiles are a map keyed by document id;
- bookmarks are a list in server order.

Failures are injected per call, so upsert, idempotence and "nothing else changes" are statements about store contents.

## Modules

| file | module | models |
|---|---|---|
| `js.dfy` | `Js` | the JavaScript value semantics the code relies on: `null`, string truthiness, `startsWith`, `includes`, `find`, `filter`, and `${n}` for integers |
| `backend.dfy` | `Backend` | SDK replies, errors, the user and session records, the call trace |
| `session_api.dfy` | `SessionApi` | sign-up/in/out, `ensureSession`, `validateSession`, anonymous sessions, the OAuth refresh window |
| `document_api.dfy` | `DocumentApi` | profile get-or-create and update-or-create, `addBookmark`, `safeGetDocument`, `safeListDocuments` |
| `guest_session.dfy` | `GuestSession` | `ensureGuestSession` with its in-progress flag, `isAnonymousUser`, `shouldShowSignUpPrompt` |
| `auth_context.dfy` | `AuthContext` | `checkSession`, the wallet effect, the active-account sync, `signOut` |
| `signup_page.dfy` | `SignUpPage` | `handleSignUp`, `handleGitHubSignUp` |
| `integration.dfy` | `Integration` | `processAndRecordPayment` and its three wrappers |
| `notifications.dfy` | `Notifications` | preference records, toggles, enabled counts, the save/close snackbar |

## Notes on the code

- `ensureSession` (`src/utils/api.ts:272-280`) rethrows when the anonymous fallback fails. `SessionApi.EnsureSession` therefore returns a `Result` whose `Failure` branch is reachable.
- In `getUserProfile` and `updateUserProfile`, the 404 path fills a missing profile from the *current* account (`account.get()`). It does not read the account named by `userId`. The model does the same: the account's reply is an input independent of `userId`.

## Model

| member | source | states |
|---|---|---|
| Js.FindFirst | src/contexts/AuthContext.tsx:49 | `find` returns the first element satisfying the predicate: it satisfies it, no earlier one does, and none is found exactly when no element satisfies it |
| Js.Filter | src/components/profile/NotificationsSection.tsx:122 | `filter` keeps exactly the elements satisfying the predicate and is never longer than its input |
| Js.FilterHeadIsFindFirst | src/utils/api.ts:604-606 | the first filtered element is the element `find` returns, and the filter is empty exactly when `find` finds nothing |
| Js.FilterAppend | src/utils/api.ts:598-602 | filtering a list with one element appended is filtering the list, then appending that element if it passes |
| Js.IncludesHasEveryChar | src/services/integration.ts:57 | a string that `includes` another contains each of its characters |
| Js.NatToString | src/services/integration.ts:81 | a rendered natural number is a non-empty run of decimal digits with no leading zero |
| Js.IntToString | src/services/integration.ts:81 | a rendered integer is non-empty and made only of digits and a minus sign; it starts with `-` exactly for a negative number, and the digits read back as the number's absolute value |
| Js.NatToStringRoundTrip | src/services/integration.ts:81 | reading back the digits of a rendered natural number gives the number |
| Js.IntToStringInjective | src/services/integration.ts:81 | different integers never render to the same text |
| Backend.Rethrown | src/utils/api.ts:276-279 | a failed SDK call surfaces as an error carrying the same code; a successful one passes its value through |
| Backend.WalletUser | src/contexts/AuthContext.tsx:83-87 | the wallet user's id is `wallet-` followed by the address, and its `walletId` is the address |
| SessionApi.SignUp | src/utils/api.ts:19-44 | succeeds exactly when account creation does; verification is requested only after a successful creation and its failure is ignored; a creation failure is a wrapped "Failed to create user" error |
| SessionApi.SignOut | src/utils/api.ts:69-86 | always reports true; the current session is deleted exactly when looking it up succeeded; only those two calls are made |
| SessionApi.SignIn | src/utils/api.ts:46-67 | the sign-out calls come first, then the password session for that email; succeeds exactly when session creation and the user read both do, returning the user read |
| SessionApi.ListSessions | src/utils/api.ts:88-95 | returns the listing, or `{total: 0, sessions: []}` when listing fails; never fails |
| SessionApi.CreateAnonymousSession | src/utils/api.ts:220-238 | returns the signed-in user and creates nothing when reading the user succeeds; creates an anonymous session exactly when it fails; fails exactly when both fail |
| SessionApi.Reactivate | src/utils/api.ts:253-269 | yields a user exactly when a first session is listed, its refresh succeeds and the user is read back; refreshes at most once, only `sessions[0]`, and creates nothing |
| SessionApi.EnsureSession | src/utils/api.ts:244-282 | a live session short-circuits with a single call; only `sessions[0]` is ever refreshed; a successful reactivation creates no anonymous session; the anonymous fallback is reached only when both earlier rungs failed, and its failure is rethrown; any returned user is the one a final `account.get()` read |
| SessionApi.VerifySession | src/utils/api.ts:287-296 | returns the user exactly when reading it succeeds, otherwise null; never fails |
| SessionApi.ValidateSession | src/utils/api.ts:301-322 | true exactly when the user read succeeds, or it failed with 401 and the first listed session could be refreshed; other codes give false after a single call; never creates anything |
| SessionApi.ConvertAnonymousSession | src/utils/api.ts:330-342 | updates the email first; updates the name exactly when the email update returned a truthy response; fails exactly when one of those updates fails; never creates an account or session |
| SessionApi.GetCurrentSession | src/utils/api.ts:954-960 | returns the current session exactly when looking it up succeeds, otherwise null |
| SessionApi.IsLoggedIn | src/utils/api.ts:966-968 | true exactly when the current session can be looked up |
| SessionApi.EnsureValidOAuthToken | src/utils/api.ts:987-1012 | a GitHub session expiring in under 300 seconds (`NeedsRefresh`, api.ts:994-1001) is refreshed and the refreshed session returned (null if the refresh fails); any other session is returned unchanged with no further call; a failed lookup gives null |
| SessionApi.SignOutDeletesIffLoggedIn | src/utils/api.ts:69-86 | `signOut` deletes a session exactly when `isLoggedIn` would report true on the same lookup, which is exactly when `getCurrentSession` returns a session |
| SessionApi.VerifiedSessionIsValid | src/utils/api.ts:287-322 | a user `verifySession` returns makes `validateSession` true on the same read; a true `validateSession` without a 401 means `verifySession` returns that user |
| SessionApi.ReactivateUsesListedFirst | src/utils/api.ts:253-262 | the only session the middle rung refreshes is the first one `listSessions` would report, and it yields a user only for a non-empty listing |
| SessionApi.NeedsRefreshMonotone | src/utils/api.ts:994-1001 | a session due for refresh (`NeedsRefresh`: GitHub, under 300 seconds left) is still due at any later time |
| SessionApi.RefreshWindowEdge | src/utils/api.ts:998-1001 | a GitHub session with 299 seconds left is refreshed and one with 300 seconds left is not |
| SessionApi.LaterCheckRefreshesToo | src/utils/api.ts:987-1008 | once a token check refreshes, a later check on the same replies refreshes too and returns the same result |
| SessionApi.OAuthNullMeansRefreshFailed | src/utils/api.ts:987-1012 | when a session is found, the token check gives null only because it was due and its refresh failed |
| DocumentApi.Stamped | src/utils/api.ts:555-558 | the update payload has exactly the keys of `data` plus `updatedAt`, carries every attribute of `data`, and has the new `updatedAt` |
| DocumentApi.ProfileEmail | src/utils/api.ts:511-513 | the profile email is the account email, else `<providerUid>@github.user` for a GitHub account with a uid, else empty; it is non-empty exactly in the first two cases |
| DocumentApi.NewProfile | src/utils/api.ts:520-529 | the new profile has exactly the eight keys of the source: the user id, the account name, the derived email, an empty picture, `createdAt` and `updatedAt` set to the timestamp, no skills and an empty bio |
| DocumentApi.CreateUserProfile | src/utils/api.ts:504-538 | creates the profile under the user id exactly when that id is free and no fault occurs, storing exactly the new profile; otherwise the store is unchanged and the error is wrapped |
| DocumentApi.GetUserProfile | src/utils/api.ts:473-499 | an existing profile is returned with a single call; the result is non-null exactly when the profile exists, or after a 404 the current account is read and the create succeeds; every null result leaves the store unchanged, including a failed account read or create after a 404; the current account is read exactly after a 404 and created from only when read; no other document changes; a returned profile is the stored one |
| DocumentApi.ApplyUpdate | src/utils/api.ts:551-559 | the update succeeds exactly when the document exists and no fault occurs; the stored document then carries the payload; a failure leaves the store unchanged, with 404 for a missing document |
| DocumentApi.CreateThenUpdate | src/utils/api.ts:563-582 | reads the current account first and creates exactly when that read succeeds; a successful result is the new profile built from that account (`NewProfile`), merged with `data` and the timestamp exactly when `data` has a key (`CreatedProfile`); the follow-up update is made exactly when the create succeeded and `data` has a key; success exactly when the account read, the create and any follow-up update succeed; a failed follow-up update leaves exactly the created profile behind, and any other failure writes nothing; errors are wrapped |
| DocumentApi.UpdateUserProfile | src/utils/api.ts:540-590 | on success the stored profile is the returned one and carries every attribute of `data` and the new timestamp; an existing profile is merged without creating anything; a non-404 lookup error fails with no write; a 404 from the lookup, or from the update after a successful lookup (`TakesCreatePath`), reads the current account and creates from it, and only then; a successful create-path result is the profile built from the account, merged with `data` when it has a key; success exactly when the lookup and update succeed, or the create path runs for a missing profile and its account read, create and any follow-up update succeed; every failure outside the create path, including a non-404 update error after a successful lookup, writes nothing; no other profile changes; all errors are wrapped |
| DocumentApi.UpdateUserProfileOutcome | src/utils/api.ts:540-590 | without the create path a success stores the merged profile; after a lookup 404 the follow-up update is made exactly when the account read and create succeed and `data` has a key; for a missing profile, success exactly when the account read, the create and any follow-up update succeed; a failure leaves either the old store or the created profile |
| DocumentApi.UpdateNotFoundAfterLookupFails | src/utils/api.ts:548-584 | in the model an update 404 after a successful lookup reads the account but fails, with the store unchanged, because the profile the lookup found makes the create fail |
| DocumentApi.ReapplyChangesNothing | src/utils/api.ts:551-560 | updating a profile that already carries the update writes the same document back and returns it |
| DocumentApi.UpdateUserProfileIdempotent | src/utils/api.ts:540-590 | applying the same profile update twice at the same timestamp `now` leaves the same store and result as applying it once |
| DocumentApi.AddBookmark | src/utils/api.ts:595-626 | the bookmarks of the user for the job (`Matching`, the query of api.ts:598-602); with an existing bookmark for the user and job, the first one is returned and nothing is written; otherwise at most one bookmark is appended; the returned bookmark is the first match afterwards, for that user and job; the call fails exactly when the listing fails, or no bookmark matches and the create fails; a failure leaves the store unchanged |
| DocumentApi.MatchingAfterAppend | src/utils/api.ts:598-618 | appending a bookmark for the user and job appends it to the matches of that pair |
| DocumentApi.AddBookmarkIdempotent | src/utils/api.ts:604-606 | adding a bookmark again returns the one already stored and writes nothing |
| DocumentApi.SafeGetDocument | src/utils/api.ts:1040-1067 | a 404 yields the default; a 401 is retried once when a second validation succeeds; every failure rethrows the original error code; never creates anything; the call trace is the validation, one fetch, and only after a 401 the revalidation and, when it succeeds, a second fetch |
| DocumentApi.SafeListDocuments | src/utils/api.ts:1076-1097 | never fails; returns the listing, the retried listing after a 401 and a successful revalidation, or the empty list; the call trace is the validation, one fetch, and only after a 401 the revalidation and, when it succeeds, a second fetch |
| GuestSession.EnsureGuestSession | src/utils/guestSession.ts:11-45 | while an attempt is in progress it returns null with no call; otherwise the flag is cleared on exit; a valid session returns the current user without creating a session; an anonymous session is created only when no valid user was read; any returned user comes from a final `account.get()`; on the anonymous path the returned user is the one the final `account.get()` read |
| GuestSession.CompletedAttemptDoesNotBlock | src/utils/guestSession.ts:42-44 | after a completed call, the next call behaves as a first call |
| GuestSession.HandleOAuthFailure | src/utils/guestSession.ts:51-60 | while an attempt is in progress it returns null with no call; otherwise the flag is lowered; null exactly when an attempt is in progress or no user could be read, directly or after creating an anonymous session; a valid session's user is returned; a returned user comes from a final `account.get()`; an anonymous session is created only when no valid user was read; on the anonymous path the returned user is the one the final `account.get()` read |
| GuestSession.IsAnonymousUser | src/utils/guestSession.ts:67-79 | false for no user; otherwise true exactly when the labels contain `anonymous`, the id starts with `anon_`, the status is false, or the provider is `anonymous` |
| GuestSession.ShouldShowSignUpPrompt | src/utils/guestSession.ts:86-89 | true exactly when there is no user or the user is anonymous |
| GuestSession.WalletUserIsNotAnonymous | src/contexts/AuthContext.tsx:83-87 | a wallet user is never anonymous and is never prompted to sign up |
| AuthContext.AccountFor | src/contexts/AuthContext.tsx:55-60 | the registered account carries the user's id, name and email, is active and has no wallet; the sign-up page registers the same record (src/app/signup/page.tsx:59-64) |
| AuthContext.Reconcile | src/contexts/AuthContext.tsx:49-67 | a found user's account is switched to exactly when it is listed but inactive; an unlisted user gets exactly one new active account with its id, name and email |
| AuthContext.CheckSession | src/contexts/AuthContext.tsx:34-78 | loading always ends; a failed read leaves the user and the account list alone; a read user is held and reconciled; a throwing switch clears the user |
| AuthContext.WalletEffect | src/contexts/AuthContext.tsx:81-110 | a connected wallet with no user becomes the wallet user; a wallet account is added only when none matches by id or wallet id (`MatchesWallet`, AuthContext.tsx:91); otherwise the first match is switched to exactly when it is inactive, and nothing else is switched; disconnecting drops a wallet user; otherwise nothing changes |
| AuthContext.WalletConnectThenDisconnect | src/contexts/AuthContext.tsx:81-110 | connecting a wallet and then disconnecting it leaves no user |
| AuthContext.DisconnectKeepsNonWalletUser | src/contexts/AuthContext.tsx:106-108 | a user without a wallet survives a wallet disconnect |
| AuthContext.UserOf | src/contexts/AuthContext.tsx:115-121 | the user built from an account carries its id, name, email, wallet id and picture |
| AuthContext.SyncActiveAccount | src/contexts/AuthContext.tsx:113-123 | with an active account the user ends with its id, and is replaced by it when absent or different; without one the user is kept |
| AuthContext.SyncActiveAccountIdempotent | src/contexts/AuthContext.tsx:113-123 | syncing twice to the same active account is syncing once |
| AuthContext.SignOut | src/contexts/AuthContext.tsx:132-144 | the session is deleted exactly for a signed-in user without a wallet; success clears the user; a failed deletion is rethrown with its code and keeps the user |
| AuthContext.SignOutTwice | src/contexts/AuthContext.tsx:132-144 | after a successful sign-out, signing out again makes no call and succeeds |
| SignUpPage.Response | src/app/signup/page.tsx:44-54 | an anonymous user is converted in place; anyone else is signed up, and the sign-up's user is the response |
| SignUpPage.HandleSignUp | src/app/signup/page.tsx:33-77 | at the account limit: the limit message, no call, loading off; otherwise exactly one backend path; the anonymous flag is lowered only by a conversion that did not fail; a truthy response registers exactly its account and navigates to the dashboard; a failure shows the fixed message and stays; loading always ends |
| SignUpPage.SignUpRegistersNewUser | src/app/signup/page.tsx:52-69 | a successful sign-up registers the new user's account, requests verification and goes to the dashboard |
| SignUpPage.HandleGitHubSignUp | src/app/signup/page.tsx:80-87 | at the account limit it shows the limit message and stays; otherwise it goes to `/api/auth/github` |
| SignUpPage.AccountLimitBlocksBothPaths | src/app/signup/page.tsx:38-42 | at the account limit both handlers stay on the page with the same message, and sign-up makes no call |
| Integration.ErrorMessage | src/services/integration.ts:97 | an `Error` reports its message; anything else reports "Unknown error processing payment" |
| Integration.SplitAtFirstSpace | src/services/integration.ts:81 | a space-free word, a space and a rest come apart in only one way |
| Integration.PaymentMessageInjective | src/services/integration.ts:81 | the notification text (`PaymentMessage`) determines the amount and the currency |
| Integration.AfterTransaction | src/services/integration.ts:57-87 | the crypto record is made exactly for a crypto method with details; the notification, when made, is the payment notice; the stages stay in order |
| Integration.ProcessAndRecordPayment | src/services/integration.ts:17-100 | the effects run in order (pay, transaction record, optional crypto record, notification); an unusable payment writes nothing and reports its own error or "Payment processing failed"; the transaction record carries the payment's status and id; success returns that id and ends with the notification; the crypto record is made exactly for a crypto method with details and carries the payment's hash, addresses, network and value as text; a throwing transaction record, crypto record or notification is reported with that throw's message; success exactly when no step failed; never throws |
| Integration.AddFunds | src/services/integration.ts:105-118 | pays with the description "Add funds to account", keeps the effects in order, succeeds exactly when the payment is usable and no write fails, and returns the payment's transaction id on success |
| Integration.DescriptionReachesOnlyThePayment | src/services/integration.ts:17-31 | the description reaches only the payment request: the outcome and every later write are the same whatever it is |
| Integration.AddFundsIsPlainPayment | src/services/integration.ts:105-118 | adding funds ends like the plain payment with any description, with the same writes after the payment |
| Integration.ProcessJobPayment | src/services/integration.ts:123-136 | pays by `job_payment` with the job description and never records crypto details |
| Integration.ProcessServicePayment | src/services/integration.ts:141-154 | pays by `service_payment` with the service description and never records crypto details |
| Integration.NotCrypto | src/services/integration.ts:133 | neither fixed method name contains `crypto` |
| Notifications.Values | src/components/profile/NotificationsSection.tsx:122 | the values list has five entries, one per key, in key order |
| Notifications.Toggle | src/components/profile/NotificationsSection.tsx:69-74 | a toggle flips the named key and leaves the other four keys unchanged |
| Notifications.ToggleTwice | src/components/profile/NotificationsSection.tsx:72 | toggling the same key twice restores the record |
| Notifications.ToggleChannel | src/components/profile/NotificationsSection.tsx:69-90 | toggling in one channel leaves the other two channels unchanged |
| Notifications.CountEnabled | src/components/profile/NotificationsSection.tsx:121-123 | the enabled count is at most 5, matching the "/5" label |
| Notifications.FilterCountsTrue | src/components/profile/NotificationsSection.tsx:122 | the length of the filtered values is the number of true values |
| Notifications.CountTrueUpdate | src/components/profile/NotificationsSection.tsx:72 | overwriting one value changes the count by what was removed and what was added |
| Notifications.CountEnabledIsTrueFields | src/components/profile/NotificationsSection.tsx:121-123 | the enabled count is the number of keys that are on |
| Notifications.ToggleChangesCountByOne | src/components/profile/NotificationsSection.tsx:69-74 | each toggle moves its channel's count by exactly one: down when the key was on, up when it was off |
| Notifications.InitialSettings | src/components/profile/NotificationsSection.tsx:36-58 | the three channels start from their initial records |
| Notifications.InitialCounts | src/components/profile/NotificationsSection.tsx:36-58 | the initial counts are 4 for email, 3 for push and 1 for SMS |
| Notifications.InitialView | src/components/profile/NotificationsSection.tsx:60-66 | the page starts with the initial settings, the snackbar closed and not loading |
| Notifications.SaveSettings | src/components/profile/NotificationsSection.tsx:93-114 | saving ends loading, opens the snackbar with the success or failure message, and leaves the settings alone |
| Notifications.CloseSnackbar | src/components/profile/NotificationsSection.tsx:116-118 | closing hides the snackbar and keeps its severity and message |
| Notifications.CloseAfterSave | src/components/profile/NotificationsSection.tsx:93-118 | after a save, closing keeps the success message, and closing again changes nothing |

## Left out

- The backend SDK itself is not modelled: HTTP, OAuth redirects, sending email and verification, MFA, magic links, OTP tokens and files. Every SDK call is an input reply.
- The SDK's error messages are not modelled. A wrapped error keeps only its context string ("Failed to create user", …), not the message it embeds.
- `ID.unique()` and `new Date().toISOString()` values are inputs (`Fresh`, `now`). `Date.now()` is the `nowSeconds` input.
- UpdateUserProfileIdempotent: one call's separate `new Date()` readings are collapsed into one `now`. That covers `createdAt` and `updatedAt` at src/utils/api.ts:525-526, and the follow-up update's `updatedAt` at api.ts:577. Two real calls stamp different times, so the idempotence holds only for two calls at the same `now`.
- AuthContext.WalletEffect: the `switchAccount` call of the wallet effect (src/contexts/AuthContext.tsx:104) is outside any `try`; a throw there would escape the effect, and that is not modelled.
- The multi-account context is not part of this model. `addAccount` and `switchAccount` are recorded as effects, not interpreted. `hasMaxAccounts` and `isAnonymous` are inputs. An `addAccount` that throws is caught at every call site, so its failure is not modelled. A throwing `switchAccount` in `checkSession` is the `switchThrows` input.
- Concurrency is not modelled. This covers the interleaving of `checkSession` with sign-in, React effect scheduling and real async re-entrancy. The in-progress flag of `ensureGuestSession` is sequential state.
- Integration.ProcessAndRecordPayment: amounts are whole numbers, and so is the crypto record's `value` (src/services/integration.ts:61-68). JavaScript's rendering of fractional or non-finite numbers is not modelled, either in the notification text or in the `value.toString()` of the crypto record.
- DocumentApi.UpdateUserProfile: a deletion of the profile between the lookup and the update is not modelled, because the store is one snapshot. The update-404 route of src/utils/api.ts:563-583 therefore always fails in the model, because the create finds the profile (`UpdateNotFoundAfterLookupFails`). In the program, that create would succeed and return the new profile.
- SessionApi.EnsureValidOAuthToken: `providerAccessTokenExpiry` is assumed to be a whole number of seconds, as the subtraction at src/utils/api.ts:997-999 treats it. The SDK's type for the field is not part of this model. If it were a date string, `expiryTime - now` would be `NaN`, and the code would never refresh.
- The payment service and `recordCryptoTransaction` are not part of this model. They are effects whose outcome is an input. Database ids and the timestamps inside the payment records are not modelled.
- Notifications.SaveSettings: the awaited save is a stand-in delay that never rejects, so the `failed` input is false for the code as written; the error branch is kept for completeness.
- Console logging and all rendering (JSX, styling, animations) are not modelled.
- The other `src/utils/api.ts` functions are not modelled: OTP, magic link, MFA, recovery, verification, files, jobs, transactions, `removeBookmark` and the remaining database helpers. They are not part of the modelled core.
- `src/utils/transactionUtils.ts`, `src/hooks/useWallet.ts` and the theme providers are not modelled. They are floating-point formatting, RPC polling and UI configuration.
- The OAuth `refreshOAuthSession` wrapper appears only through `EnsureValidOAuthToken`, which catches whatever it throws.

=== FILE: auth_context.dfy ===
/** `src/contexts/AuthContext.tsx`: the context's transitions, each a pure step
    from the held user to the next one. The multi-account context it talks to
    is not part of this model: its `addAccount` and `switchAccount` are
    recorded as effects, in order, instead of being interpreted. */
module AuthContext {
  import opened Js
  import opened Backend

  /** An entry of the multi-account list. */
  datatype UserAccount = UserAccount(
    id: string,
    name: string,
    email: string,
    walletId: string,
    profilePicture: string,
    isActive: bool)

  /** A call into the multi-account context. */
  datatype AccountEffect = AddAccount(account: UserAccount) | SwitchAccount(id: string)

  datatype AuthState = AuthState(user: Option<User>, isLoading: bool)

  /** A step's resulting state, the account effects and the SDK calls it made. */
  datatype AuthStep = AuthStep(state: AuthState, effects: seq<AccountEffect>, calls: seq<Call>)

  /** `accounts.find(acc => acc.$id === id)`, as an index. */
  function FindById(accounts: seq<UserAccount>, id: string): Option<nat> {
    FindFirst(accounts, (a: UserAccount) => a.id == id)
  }

  /** The account registered for a user found by `checkSession` or produced
      by the sign-up page: its id, name and email, active, with no wallet. */
  function AccountFor(u: User): (a: UserAccount)
    ensures a.id == u.id && a.name == u.name && a.email == u.email && a.isActive
    ensures !Truthy(a.walletId)
  {
    UserAccount(u.id, u.name, u.email, "", "", true)
  }

  /** The account effects of reconciling a found user with the account list:
      switch to its account if that is inactive, add one if there is none. */
  function Reconcile(accounts: seq<UserAccount>, u: User): (effects: seq<AccountEffect>)
    ensures (exists i | 0 <= i < |accounts| :: accounts[i].id == u.id) ==>
      forall e | e in effects :: e == SwitchAccount(u.id)
    ensures (forall i | 0 <= i < |accounts| :: accounts[i].id != u.id) ==> effects == [AddAccount(AccountFor(u))]
    ensures |effects| <= 1
    ensures SwitchAccount(u.id) in effects <==>
      FindById(accounts, u.id).Some? && !accounts[FindById(accounts, u.id).value].isActive
  {
    match FindById(accounts, u.id)
    case None => [AddAccount(AccountFor(u))]
    case Some(i) => if !accounts[i].isActive then [SwitchAccount(u.id)] else []
  }

  /** `checkSession`, run on mount: reads the current user; when there is one,
      holds it and reconciles it with the account list. It always ends with
      `isLoading` false. A throwing `switchAccount` lands in the outer catch,
      which clears the user. */
  function CheckSession(s: AuthState, accounts: seq<UserAccount>, get: Reply<User>, switchThrows: bool)
    : (r: AuthStep)
    ensures !r.state.isLoading
    ensures r.calls == [AccountGet]
    ensures get.Fail? ==> r.state.user == s.user && r.effects == []
    ensures get.Ok? ==> r.effects == Reconcile(accounts, get.value)
    ensures get.Ok? && !(switchThrows && SwitchAccount(get.value.id) in r.effects) ==>
      r.state.user == Some(get.value)
    ensures get.Ok? && switchThrows && SwitchAccount(get.value.id) in r.effects ==> r.state.user.None?
  {
    match get
    case Fail(_) => AuthStep(AuthState(s.user, false), [], [AccountGet])
    case Ok(u) =>
      var effects := Reconcile(accounts, u);
      var threw := switchThrows && effects == [SwitchAccount(u.id)];
      AuthStep(AuthState(if threw then None else Some(u), false), effects, [AccountGet])
  }

  /** `acc.$id === "wallet-" + address || acc.walletId === address` */
  predicate MatchesWallet(a: UserAccount, address: string) {
    a.id == "wallet-" + address || a.walletId == address
  }

  datatype WalletStep = WalletStep(user: Option<User>, effects: seq<AccountEffect>)

  /** `accounts.find(...)` for the wallet's account, as an index. */
  function FindWallet(accounts: seq<UserAccount>, address: string): Option<nat> {
    FindFirst(accounts, (a: UserAccount) => MatchesWallet(a, address))
  }

  /** The wallet effect: a connected wallet with nobody signed in becomes the
      user `wallet-<address>` and is registered (or switched to) in the
      account list; a disconnected wallet drops a wallet user. */
  function WalletEffect(user: Option<User>, accounts: seq<UserAccount>, address: string): (r: WalletStep)
    ensures Truthy(address) && user.None? ==> r.user == Some(WalletUser(address))
    ensures Truthy(address) && user.None? && (forall i | 0 <= i < |accounts| :: !MatchesWallet(accounts[i], address)) ==>
      r.effects == [AddAccount(UserAccount("wallet-" + address, "", "", address, "", true))]
    ensures Truthy(address) && user.None? && (exists i | 0 <= i < |accounts| :: MatchesWallet(accounts[i], address)) ==>
      forall e | e in r.effects :: e.SwitchAccount?
    ensures forall e | e in r.effects :: e.SwitchAccount? ==>
      exists i | 0 <= i < |accounts| :: accounts[i].id == e.id && !accounts[i].isActive && MatchesWallet(accounts[i], address)
    // only the first match counts: switched to exactly when it is inactive
    ensures Truthy(address) && user.None? && FindWallet(accounts, address).Some? ==>
      var first := accounts[FindWallet(accounts, address).value];
      r.effects == (if first.isActive then [] else [SwitchAccount(first.id)])
    ensures !Truthy(address) && user.Some? && Truthy(user.value.walletId) ==> r.user.None? && r.effects == []
    ensures !(Truthy(address) && user.None?) && !(!Truthy(address) && user.Some? && Truthy(user.value.walletId)) ==>
      r.user == user && r.effects == []
  {
    if Truthy(address) && user.None? then
      var wallet := WalletUser(address);
      match FindWallet(accounts, address)
      case None => WalletStep(Some(wallet), [AddAccount(UserAccount(wallet.id, "", "", address, "", true))])
      case Some(i) =>
        WalletStep(Some(wallet), if !accounts[i].isActive then [SwitchAccount(accounts[i].id)] else [])
    else if !Truthy(address) && user.Some? && Truthy(user.value.walletId) then WalletStep(None, [])
    else WalletStep(user, [])
  }

  /** Connecting a wallet and then disconnecting it returns to nobody signed in. */
  lemma WalletConnectThenDisconnect(accounts: seq<UserAccount>, accounts': seq<UserAccount>, address: string)
    requires Truthy(address)
    ensures var connected := WalletEffect(None, accounts, address);
      WalletEffect(connected.user, accounts', "").user.None?
  {
  }

  /** A signed-in user without a wallet is never dropped by a wallet disconnect. */
  lemma DisconnectKeepsNonWalletUser(u: User, accounts: seq<UserAccount>)
    requires !Truthy(u.walletId)
    ensures WalletEffect(Some(u), accounts, "") == WalletStep(Some(u), [])
  {
  }

  /** The user the active account stands for. */
  function UserOf(a: UserAccount): (u: User)
    ensures u.id == a.id && u.name == a.name && u.email == a.email
    ensures u.walletId == a.walletId && u.profilePicture == a.profilePicture
  {
    User(a.id, a.name, a.email, a.walletId, a.profilePicture, [], None, "", "")
  }

  /** The active-account effect: the held user follows the active account. */
  function SyncActiveAccount(user: Option<User>, active: Option<UserAccount>): (r: Option<User>)
    ensures active.None? ==> r == user
    ensures active.Some? ==> r.Some? && r.value.id == active.value.id
    ensures active.Some? && (user.None? || user.value.id != active.value.id) ==> r == Some(UserOf(active.value))
    ensures active.Some? && user.Some? && user.value.id == active.value.id ==> r == user
  {
    if active.Some? && (user.None? || user.value.id != active.value.id) then Some(UserOf(active.value))
    else user
  }

  /** Syncing twice to the same active account is syncing once. */
  lemma SyncActiveAccountIdempotent(user: Option<User>, active: Option<UserAccount>)
    ensures SyncActiveAccount(SyncActiveAccount(user, active), active) == SyncActiveAccount(user, active)
  {
  }

  /** A successful sign-out is final: signing out again makes no call and
      succeeds, whatever the backend would answer. */
  lemma SignOutTwice(user: Option<User>, delete: Reply<()>, delete': Reply<()>)
    requires SignOut(user, delete).result.Success?
    ensures SignOut(SignOut(user, delete).user, delete') == SignOutStep(Success(()), None, [])
  {
  }

  datatype SignOutStep = SignOutStep(result: Result<()>, user: Option<User>, calls: seq<Call>)

  /** The context's `signOut`: deletes the backend session only for a signed-in
      user without a wallet, then clears the user. A failed deletion is
      rethrown and leaves the user in place. */
  function SignOut(user: Option<User>, delete: Reply<()>): (r: SignOutStep)
    ensures (AccountDeleteSession in r.calls) <==> user.Some? && !Truthy(user.value.walletId)
    ensures |r.calls| <= 1
    ensures r.result.Success? ==> r.user.None?
    ensures r.result.Failure? <==> AccountDeleteSession in r.calls && delete.Fail?
    ensures r.result.Failure? ==> r.user == user && delete.Fail? && r.result.error == ApiError(delete.code)
  {
    if user.Some? && !Truthy(user.value.walletId) then
      match delete
      case Ok(_) => SignOutStep(Success(()), None, [AccountDeleteSession])
      case Fail(code) => SignOutStep(Failure(ApiError(code)), user, [AccountDeleteSession])
    else SignOutStep(Success(()), None, [])
  }
}

=== FILE: backend.dfy ===
/** The hosted backend as the modelled code sees it. Nothing of the SDK's own
    semantics is modelled: every SDK call is answered by a `Reply` supplied as
    an input (the oracle), and every operation returns, next to its result, the
    trace of SDK calls it made, so that properties such as "makes no create
    call" can be stated. */
module Backend {
  import opened Js

  /** How one SDK call settled: the value its promise resolved to, or the
      `code` of the exception it threw. */
  datatype Reply<+T> = Ok(value: T) | Fail(code: int)

  /** HTTP-style codes the modelled code branches on. */
  const Unauthorized: int := 401
  const NotFound: int := 404
  const Conflict: int := 409

  /** An error escaping a modelled operation: an SDK exception rethrown as is
      (it keeps its `code`), or a fresh `new Error(context + ": " + …)`, which
      has no `code`. The SDK's own message text is not modelled. */
  datatype Error = ApiError(code: int) | Wrapped(context: string)

  /** A value, or the error the operation throws. */
  datatype Result<+T> = Success(value: T) | Failure(error: Error)

  /** An SDK call that failed with `code`, rethrown unchanged. */
  function Rethrown<T>(r: Reply<T>): (res: Result<T>)
    ensures res.Success? <==> r.Ok?
    ensures r.Ok? ==> res.value == r.value
    ensures r.Fail? ==> res.error == ApiError(r.code)
  {
    match r
    case Ok(v) => Success(v)
    case Fail(c) => Failure(ApiError(c))
  }

  /** A user record: the backend's account object, together with the two
      fields the wallet layer adds (`walletId`, `profilePicture`). `labels` is
      [] when absent; `status` is `None` when absent or not a boolean. */
  datatype User = User(
    id: string,
    name: string,
    email: string,
    walletId: string,
    profilePicture: string,
    labels: seq<string>,
    status: Option<bool>,
    provider: string,
    providerUid: string)

  /** `{ $id: "wallet-" + address, walletId: address }`, the user a connected
      wallet stands for. */
  function WalletUser(address: string): (u: User)
    ensures u.walletId == address && StartsWith(u.id, "wallet-")
    ensures u.id[|"wallet-"|..] == address
  {
    User("wallet-" + address, "", "", address, "", [], None, "", "")
  }

  /** A session marker. `providerAccessTokenExpiry` is in seconds. */
  datatype Session = Session(id: string, provider: string, providerAccessTokenExpiry: int)

  /** The reply of `account.listSessions()`: `total` as the server reports it,
      which need not equal the length of `sessions`. */
  datatype SessionList = SessionList(total: int, sessions: seq<Session>)

  /** `sessions && sessions.total > 0 && sessions.sessions[0]` */
  predicate HasFirstSession(l: SessionList) {
    l.total > 0 && |l.sessions| > 0
  }

  /** The database collections the modelled code addresses. */
  datatype Collection = Profiles | Bookmarks | Named(databaseId: string, collectionId: string)

  /** One SDK call, as recorded in a trace. */
  datatype Call =
    | AccountGet
    | AccountCreate(email: string, name: string)
    | AccountCreateVerification
    | AccountGetSession                       // getSession('current')
    | AccountDeleteSession                    // deleteSession('current')
    | AccountListSessions
    | AccountUpdateSession(sessionId: string)
    | AccountCreateAnonymousSession
    | AccountCreateEmailPasswordSession(email: string)
    | AccountUpdateEmail(email: string)
    | AccountUpdateName(name: string)
    | DbGetDocument(collection: Collection, documentId: string)
    | DbListDocuments(collection: Collection)
    | DbCreateDocument(collection: Collection, documentId: string)
    | DbUpdateDocument(collection: Collection, documentId: string)

  /** A result together with the SDK calls made to reach it, in order. */
  datatype Run<+T> = Run(value: T, calls: seq<Call>)

  /** Every session refresh in `calls` targets the FIRST listed session, and
      there is at most one: later sessions are never tried. */
  predicate RefreshesOnlyFirst(calls: seq<Call>, list: Reply<SessionList>) {
    && (forall i | 0 <= i < |calls| && calls[i].AccountUpdateSession? ::
          list.Ok? && HasFirstSession(list.value) && calls[i].sessionId == list.value.sessions[0].id)
    && (forall i, j | 0 <= i < j < |calls| :: !(calls[i].AccountUpdateSession? && calls[j].AccountUpdateSession?))
  }

  /** No call in `calls` writes to the database or creates an account or session. */
  predicate CreatesNothing(calls: seq<Call>) {
    forall i | 0 <= i < |calls| ::
      !calls[i].AccountCreate? && !calls[i].AccountCreateAnonymousSession? && !calls[i].DbCreateDocument?
  }
}

=== FILE: document_api.dfy ===
/** The document functions of `src/utils/api.ts`: the bookmark and profile
    upserts over a document store, and the error-mapping wrappers
    `safeGetDocument` / `safeListDocuments`.

    The profiles and bookmarks collections are modelled as stores (a map keyed
    by document id, a list in server order). Each database call may be made to
    fail by an injected `Fault` (the code of the exception it throws);
    otherwise the store answers it. */
module DocumentApi {
  import opened Js
  import opened Backend
  import SessionApi

  const CreateProfileFailed := "Failed to create user profile"
  const UpdateProfileFailed := "Failed to update user profile"
  const AddBookmarkFailed := "Failed to add bookmark"

  /** An attribute value of a document. */
  datatype Value = Text(text: string) | TextList(items: seq<string>)

  /** A document: attribute name to value. */
  type Document = map<string, Value>

  /** The profiles collection, keyed by document id (which is the user id). */
  type ProfileStore = map<string, Document>

  /** `None`: the store answers the call; `Some(code)`: the call throws `code`. */
  type Fault = Option<int>

  // --------------------------------------------------------------- the store

  /** `databases.getDocument` on the profiles collection. */
  function GetDocument(store: ProfileStore, id: string, fault: Fault): Reply<Document> {
    if fault.Some? then Fail(fault.value)
    else if id in store then Ok(store[id])
    else Fail(NotFound)
  }

  /** The outcome of a write: the reply and the store after it. */
  datatype Write = Write(reply: Reply<Document>, store: ProfileStore)

  /** `databases.createDocument` with an explicit id: refused when the id is taken. */
  function CreateDocument(store: ProfileStore, id: string, data: Document, fault: Fault): Write {
    if fault.Some? then Write(Fail(fault.value), store)
    else if id in store then Write(Fail(Conflict), store)
    else Write(Ok(data), store[id := data])
  }

  /** `databases.updateDocument`: merges the given attributes into the document. */
  function UpdateDocument(store: ProfileStore, id: string, patch: Document, fault: Fault): Write {
    if fault.Some? then Write(Fail(fault.value), store)
    else if id !in store then Write(Fail(NotFound), store)
    else Write(Ok(store[id] + patch), store[id := store[id] + patch])
  }

  /** `{...data, updatedAt: now}`: the caller's attributes with the timestamp last. */
  function Stamped(data: Document, now: string): (p: Document)
    ensures "updatedAt" in p && p["updatedAt"] == Text(now)
    ensures forall k | k in data && k != "updatedAt" :: k in p && p[k] == data[k]
    ensures p.Keys == data.Keys + {"updatedAt"}
  {
    data + map["updatedAt" := Text(now)]
  }

  // ------------------------------------------------------- createUserProfile

  /** The profile email: the account's email, else `<providerUid>@github.user`
      for a GitHub account with a provider uid, else empty. */
  function ProfileEmail(u: User): (e: string)
    ensures Truthy(u.email) ==> e == u.email
    ensures !Truthy(u.email) && u.provider == "github" && Truthy(u.providerUid) ==>
      e == u.providerUid + "@github.user"
    ensures !Truthy(u.email) && !(u.provider == "github" && Truthy(u.providerUid)) ==> e == ""
    ensures Truthy(e) <==> Truthy(u.email) || (u.provider == "github" && Truthy(u.providerUid))
  {
    if Truthy(u.email) then u.email
    else if u.provider == "github" && Truthy(u.providerUid) then u.providerUid + "@github.user"
    else ""
  }

  /** The document `createUserProfile` writes for `userId` from account data `u`. */
  function NewProfile(userId: string, u: User, now: string): (p: Document)
    ensures "userId" in p && p["userId"] == Text(userId)
    ensures "name" in p && p["name"] == Text(u.name)
    ensures "email" in p && p["email"] == Text(ProfileEmail(u))
    ensures "updatedAt" in p && p["updatedAt"] == Text(now)
    ensures "createdAt" in p && p["createdAt"] == Text(now)
    ensures "profilePicture" in p && p["profilePicture"] == Text("")
    ensures "skills" in p && p["skills"] == TextList([])
    ensures "bio" in p && p["bio"] == Text("")
    ensures p.Keys == {"userId", "name", "email", "profilePicture", "createdAt", "updatedAt", "skills", "bio"}
  {
    map[
      "userId" := Text(userId),
      "name" := Text(u.name),
      "email" := Text(ProfileEmail(u)),
      "profilePicture" := Text(""),
      "createdAt" := Text(now),
      "updatedAt" := Text(now),
      "skills" := TextList([]),
      "bio" := Text("")]
  }

  /** A store-changing operation's result, new store and SDK calls. */
  datatype StoreRun<+T> = StoreRun(value: T, store: ProfileStore, calls: seq<Call>)

  /** The documents other than `userId`'s are the same in both stores. */
  predicate OthersUnchanged(before: ProfileStore, after: ProfileStore, userId: string) {
    && (forall id | id in before && id != userId :: id in after && after[id] == before[id])
    && (forall id | id in after && id != userId :: id in before)
  }

  /** `doc` carries every attribute of `patch` with the same value. */
  predicate Carries(doc: Document, patch: Document) {
    forall k | k in patch :: k in doc && doc[k] == patch[k]
  }

  /** `createUserProfile`: creates the profile document with the user id as its
      document id, populated from the account data. */
  function CreateUserProfile(userId: string, u: User, now: string, store: ProfileStore, fault: Fault)
    : (r: StoreRun<Result<Document>>)
    ensures r.calls == [DbCreateDocument(Profiles, userId)]
    ensures r.value.Success? <==> fault.None? && userId !in store
    ensures r.value.Success? ==>
      r.value.value == NewProfile(userId, u, now) && r.store == store[userId := r.value.value]
    ensures r.value.Failure? ==> r.store == store && r.value.error == Wrapped(CreateProfileFailed)
  {
    var w := CreateDocument(store, userId, NewProfile(userId, u, now), fault);
    var calls := [DbCreateDocument(Profiles, userId)];
    match w.reply
    case Ok(d) => StoreRun(Success(d), w.store, calls)
    case Fail(_) => StoreRun(Failure(Wrapped(CreateProfileFailed)), w.store, calls)
  }

  // ---------------------------------------------------------- getUserProfile

  datatype GetProfileReplies = GetProfileReplies(getFault: Fault, account: Reply<User>, createFault: Fault)

  /** `getUserProfile`: the stored profile; on a 404 the profile is created
      from the current account. Never throws: any failure yields null. */
  function GetUserProfile(userId: string, now: string, store: ProfileStore, o: GetProfileReplies)
    : (r: StoreRun<Option<Document>>)
    ensures r.value.Some? ==> userId in r.store && r.store[userId] == r.value.value
    ensures OthersUnchanged(store, r.store, userId)
    ensures r.store != store ==>
      userId !in store && o.account.Ok? && r.store == store[userId := NewProfile(userId, o.account.value, now)]
    ensures o.getFault.None? && userId in store ==>
      r.value == Some(store[userId]) && r.store == store && r.calls == [DbGetDocument(Profiles, userId)]
    ensures o.getFault.Some? && o.getFault.value != NotFound ==>
      r.value.None? && r.store == store && r.calls == [DbGetDocument(Profiles, userId)]
    ensures DbCreateDocument(Profiles, userId) in r.calls ==> GetDocument(store, userId, o.getFault) == Fail(NotFound)
    ensures o.getFault.None? && userId !in store && o.account.Ok? && o.createFault.None? ==>
      r.value == Some(NewProfile(userId, o.account.value, now))
    // null on every error, after a 404 too: a failed account read or create writes nothing
    ensures r.value.Some? <==>
      || (o.getFault.None? && userId in store)
      || (GetDocument(store, userId, o.getFault) == Fail(NotFound) && o.account.Ok? && o.createFault.None? && userId !in store)
    ensures r.value.None? ==> r.store == store
    // only a 404 reads the current account, and only a read account is created from
    ensures AccountGet in r.calls <==> GetDocument(store, userId, o.getFault) == Fail(NotFound)
    ensures DbCreateDocument(Profiles, userId) in r.calls <==>
      GetDocument(store, userId, o.getFault) == Fail(NotFound) && o.account.Ok?
  {
    var get := GetDocument(store, userId, o.getFault);
    var calls := [DbGetDocument(Profiles, userId)];
    match get
    case Ok(d) => StoreRun(Some(d), store, calls)
    case Fail(code) =>
      if code != NotFound then StoreRun(None, store, calls)
      else
        match o.account
        case Fail(_) => StoreRun(None, store, calls + [AccountGet])
        case Ok(u) =>
          var created := CreateUserProfile(userId, u, now, store, o.createFault);
          var calls' := calls + [AccountGet] + created.calls;
          match created.value
          case Success(p) => StoreRun(Some(p), created.store, calls')
          case Failure(_) => StoreRun(None, created.store, calls')
  }

  // ------------------------------------------------------- updateUserProfile

  datatype UpdateProfileReplies = UpdateProfileReplies(
    getFault: Fault,
    updateFault: Fault,
    account: Reply<User>,
    createFault: Fault,
    updateAfterCreateFault: Fault)

  /** No fault is injected anywhere. */
  function NoFaults(account: Reply<User>): UpdateProfileReplies {
    UpdateProfileReplies(None, None, account, None, None)
  }

  /** `databases.updateDocument(userId, {...data, updatedAt: now})` on the profiles collection. */
  function ApplyUpdate(userId: string, data: Document, now: string, store: ProfileStore, fault: Fault): (w: Write)
    ensures w.reply.Ok? <==> fault.None? && userId in store
    ensures w.reply.Ok? ==>
      && w.store == store[userId := store[userId] + Stamped(data, now)]
      && w.reply.value == w.store[userId]
      && Carries(w.reply.value, Stamped(data, now))
    ensures w.reply.Fail? ==> w.store == store && (fault.None? ==> w.reply.code == NotFound)
  {
    UpdateDocument(store, userId, Stamped(data, now), fault)
  }

  /** The profile the create path leaves behind: the new profile built from
      the account, with `data` and a fresh `updatedAt` merged in when `data`
      has at least one key. */
  function CreatedProfile(userId: string, u: User, data: Document, now: string): Document {
    if |data| == 0 then NewProfile(userId, u, now) else NewProfile(userId, u, now) + Stamped(data, now)
  }

  /** The create path of `updateUserProfile`, taken after a 404 from either the
      lookup or the update: create the profile from the current account, then
      apply `data` to it when `data` has at least one key. */
  function CreateThenUpdate(userId: string, data: Document, now: string, store: ProfileStore, o: UpdateProfileReplies)
    : (r: StoreRun<Result<Document>>)
    ensures r.value.Success? ==>
      userId in r.store && r.store[userId] == r.value.value && Carries(r.value.value, Stamped(data, now))
    ensures OthersUnchanged(store, r.store, userId)
    ensures r.value.Failure? ==> r.value.error == Wrapped(UpdateProfileFailed)
    // the profile is built from the current account, read first
    ensures |r.calls| > 0 && r.calls[0] == AccountGet
    ensures DbCreateDocument(Profiles, userId) in r.calls <==> o.account.Ok?
    ensures r.value.Success? ==> o.account.Ok? && r.value.value == CreatedProfile(userId, o.account.value, data, now)
    // `data` is applied only when it has a key, and only to a profile just created
    ensures DbUpdateDocument(Profiles, userId) in r.calls <==>
      o.account.Ok? && o.createFault.None? && userId !in store && |data| > 0
    ensures r.value.Success? <==>
      o.account.Ok? && o.createFault.None? && userId !in store && (|data| == 0 || o.updateAfterCreateFault.None?)
    // a failed follow-up update leaves the created profile behind
    ensures r.value.Failure? ==>
      r.store == store || (o.account.Ok? && r.store == store[userId := NewProfile(userId, o.account.value, now)])
    ensures DbUpdateDocument(Profiles, userId) in r.calls && r.value.Failure? ==>
      o.account.Ok? && r.store == store[userId := NewProfile(userId, o.account.value, now)]
    ensures DbUpdateDocument(Profiles, userId) !in r.calls && r.value.Failure? ==> r.store == store
  {
    match o.account
    case Fail(_) => StoreRun(Failure(Wrapped(UpdateProfileFailed)), store, [AccountGet])
    case Ok(u) =>
      var created := CreateUserProfile(userId, u, now, store, o.createFault);
      var calls := [AccountGet] + created.calls;
      if created.value.Failure? then StoreRun(Failure(Wrapped(UpdateProfileFailed)), created.store, calls)
      else if |data| == 0 then
        WriteKeepsOthers(store, userId, created.value.value);
        EmptyPatchIsTimestamp(created.value.value, data, now);
        StoreRun(created.value, created.store, calls)
      else
        var w := ApplyUpdate(userId, data, now, created.store, o.updateAfterCreateFault);
        var calls' := calls + [DbUpdateDocument(Profiles, userId)];
        WriteKeepsOthers(store, userId, created.value.value);
        match w.reply
        case Ok(d) =>
          WriteKeepsOthers(created.store, userId, d);
          OthersUnchangedTransitive(store, created.store, w.store, userId);
          StoreRun(Success(d), w.store, calls')
        case Fail(_) => StoreRun(Failure(Wrapped(UpdateProfileFailed)), w.store, calls')
  }

  /** Writing `userId`'s document keeps every other document. */
  lemma WriteKeepsOthers(store: ProfileStore, userId: string, d: Document)
    ensures OthersUnchanged(store, store[userId := d], userId)
  {
  }

  lemma OthersUnchangedTransitive(a: ProfileStore, b: ProfileStore, c: ProfileStore, userId: string)
    requires OthersUnchanged(a, b, userId) && OthersUnchanged(b, c, userId)
    ensures OthersUnchanged(a, c, userId)
  {
  }

  /** With no attributes to apply, a stamped profile already carries the
      whole update payload. */
  lemma EmptyPatchIsTimestamp(doc: Document, data: Document, now: string)
    requires |data| == 0 && "updatedAt" in doc && doc["updatedAt"] == Text(now)
    ensures Carries(doc, Stamped(data, now))
  {
  }

  /** `updateUserProfile` takes its create path: the lookup failed with 404,
      or it succeeded and the update then failed with 404. */
  predicate TakesCreatePath(userId: string, store: ProfileStore, o: UpdateProfileReplies) {
    || GetDocument(store, userId, o.getFault) == Fail(NotFound)
    || (GetDocument(store, userId, o.getFault).Ok? && o.updateFault == Some(NotFound))
  }

  /** `updateUserProfile`: update-or-create. A 404 from the lookup or the update
      creates the profile; any other error is rethrown, wrapped. On success the
      stored profile carries every attribute of `data` and the new `updatedAt`. */
  function UpdateUserProfile(userId: string, data: Document, now: string, store: ProfileStore, o: UpdateProfileReplies)
    : (r: StoreRun<Result<Document>>)
    ensures r.value.Success? ==>
      userId in r.store && r.store[userId] == r.value.value && Carries(r.value.value, Stamped(data, now))
    ensures r.value.Failure? ==> r.value.error == Wrapped(UpdateProfileFailed)
    ensures OthersUnchanged(store, r.store, userId)
    ensures o.getFault.Some? && o.getFault.value != NotFound ==>
      r.value.Failure? && r.store == store && r.calls == [DbGetDocument(Profiles, userId)]
    ensures o.getFault.None? && userId in store && o.updateFault.None? ==>
      && r.value.Success?
      && r.store == store[userId := store[userId] + Stamped(data, now)]
      && CreatesNothing(r.calls)
    ensures o.getFault.None? && userId !in store && o.account.Ok? && o.createFault.None? && o.updateAfterCreateFault.None? ==>
      r.value.Success?
    // a 404 from the lookup or from the update reads the current account and creates from it
    ensures AccountGet in r.calls <==> TakesCreatePath(userId, store, o)
    ensures DbCreateDocument(Profiles, userId) in r.calls <==> TakesCreatePath(userId, store, o) && o.account.Ok?
    ensures TakesCreatePath(userId, store, o) && r.value.Success? ==>
      o.account.Ok? && r.value.value == CreatedProfile(userId, o.account.value, data, now)
    // any other error, including a non-404 update fault after the lookup, fails with no write
    ensures r.value.Success? <==>
      || (o.getFault.None? && userId in store && o.updateFault.None?)
      || (TakesCreatePath(userId, store, o) && userId !in store && o.account.Ok? && o.createFault.None?
          && (|data| == 0 || o.updateAfterCreateFault.None?))
    ensures r.value.Failure? && !TakesCreatePath(userId, store, o) ==> r.store == store
  {
    var calls := [DbGetDocument(Profiles, userId)];
    match GetDocument(store, userId, o.getFault)
    case Fail(code) =>
      if code != NotFound then StoreRun(Failure(Wrapped(UpdateProfileFailed)), store, calls)
      else
        assert TakesCreatePath(userId, store, o);
        After(calls, CreateThenUpdate(userId, data, now, store, o))
    case Ok(_) =>
      After(calls, UpdateExisting(userId, data, now, store, o))
  }

  /** What `updateUserProfile` leaves behind on each path: the merged profile
      when the lookup and update succeed; after a lookup 404, a profile created
      from the current account, with `data` applied only when it has a key; and
      on failure either the store as it was or the freshly created profile. */
  lemma UpdateUserProfileOutcome(userId: string, data: Document, now: string, store: ProfileStore, o: UpdateProfileReplies)
    ensures var r := UpdateUserProfile(userId, data, now, store, o);
      && (!TakesCreatePath(userId, store, o) && r.value.Success? ==>
            r.store == store[userId := store[userId] + Stamped(data, now)])
      && (GetDocument(store, userId, o.getFault) == Fail(NotFound) ==>
            (DbUpdateDocument(Profiles, userId) in r.calls <==>
               o.account.Ok? && o.createFault.None? && userId !in store && |data| > 0))
      && (o.getFault.None? && userId !in store ==>
            (r.value.Success? <==> o.account.Ok? && o.createFault.None? && (|data| == 0 || o.updateAfterCreateFault.None?)))
      && (r.value.Failure? ==>
            r.store == store || (o.account.Ok? && r.store == store[userId := NewProfile(userId, o.account.value, now)]))
  {
  }

  /** The rest of `updateUserProfile` after the lookup found the profile: the
      update, and the create path when the update itself fails with 404. */
  function UpdateExisting(userId: string, data: Document, now: string, store: ProfileStore, o: UpdateProfileReplies)
    : (r: StoreRun<Result<Document>>)
    requires userId in store
    ensures r.value.Success? ==>
      userId in r.store && r.store[userId] == r.value.value && Carries(r.value.value, Stamped(data, now))
    ensures r.value.Failure? ==> r.value.error == Wrapped(UpdateProfileFailed)
    ensures OthersUnchanged(store, r.store, userId)
    ensures |r.calls| > 0 && r.calls[0] == DbUpdateDocument(Profiles, userId)
    ensures o.updateFault.None? ==>
      r.value.Success? && r.store == store[userId := store[userId] + Stamped(data, now)] && CreatesNothing(r.calls)
    ensures AccountGet in r.calls <==> o.updateFault == Some(NotFound)
    ensures DbCreateDocument(Profiles, userId) in r.calls <==> o.updateFault == Some(NotFound) && o.account.Ok?
    ensures o.updateFault.Some? ==> r.value.Failure? && r.store == store
  {
    var w := ApplyUpdate(userId, data, now, store, o.updateFault);
    var calls := [DbUpdateDocument(Profiles, userId)];
    match w.reply
    case Ok(d) => StoreRun(Success(d), w.store, calls)
    case Fail(code) =>
      if code != NotFound then StoreRun(Failure(Wrapped(UpdateProfileFailed)), w.store, calls)
      else After(calls, CreateThenUpdate(userId, data, now, w.store, o))
  }

  /** A run preceded by the calls that led to it. */
  function After<T>(prefix: seq<Call>, run: StoreRun<T>): (r: StoreRun<T>)
    ensures r.value == run.value && r.store == run.store
    ensures forall x :: x in r.calls <==> x in prefix || x in run.calls
  {
    StoreRun(run.value, run.store, prefix + run.calls)
  }

  /** An update that fails with 404 after a successful lookup goes down the
      create path, where the profile the lookup found makes the create fail:
      the store here is one snapshot, so a deletion between the two calls
      cannot happen. */
  lemma UpdateNotFoundAfterLookupFails(userId: string, data: Document, now: string, store: ProfileStore, o: UpdateProfileReplies)
    requires o.getFault.None? && userId in store && o.updateFault == Some(NotFound)
    ensures var r := UpdateUserProfile(userId, data, now, store, o);
      r.value.Failure? && r.store == store && AccountGet in r.calls
  {
  }

  /** Applying the same update twice, without faults, leaves the store and the
      returned profile as applying it once. */
  lemma UpdateUserProfileIdempotent(userId: string, data: Document, now: string, store: ProfileStore, u: User)
    ensures var r1 := UpdateUserProfile(userId, data, now, store, NoFaults(Ok(u)));
      var r2 := UpdateUserProfile(userId, data, now, r1.store, NoFaults(Ok(u)));
      r2.store == r1.store && r2.value == r1.value
  {
    var r1 := UpdateUserProfile(userId, data, now, store, NoFaults(Ok(u)));
    ReapplyChangesNothing(userId, data, now, r1.store, NoFaults(Ok(u)));
  }

  /** Updating a profile that already carries the update writes the same document back. */
  lemma ReapplyChangesNothing(userId: string, data: Document, now: string, store: ProfileStore, o: UpdateProfileReplies)
    requires o.getFault.None? && o.updateFault.None?
    requires userId in store && Carries(store[userId], Stamped(data, now))
    ensures var r := UpdateUserProfile(userId, data, now, store, o);
      r.store == store && r.value == Success(store[userId])
  {
    assert store[userId] + Stamped(data, now) == store[userId];
    assert store[userId := store[userId]] == store;
  }

  // ------------------------------------------------------------- bookmarks

  /** A bookmark document; `documentId` and `bookmarkId` are fresh `ID.unique()` values. */
  datatype Bookmark = Bookmark(documentId: string, userId: string, jobId: string, createdAt: string, bookmarkId: string)

  /** The bookmarks of `userId` for `jobId`, in server order:
      `Query.equal('userId', userId), Query.equal('jobId', jobId)`. */
  function Matching(store: seq<Bookmark>, userId: string, jobId: string): seq<Bookmark> {
    Filter(store, (b: Bookmark) => b.userId == userId && b.jobId == jobId)
  }

  /** Fresh values the call would draw: two `ID.unique()` and one timestamp. */
  datatype Fresh = Fresh(documentId: string, bookmarkId: string, now: string)

  datatype BookmarkReplies = BookmarkReplies(listFault: Fault, createFault: Fault)

  datatype BookmarkRun = BookmarkRun(value: Result<Bookmark>, store: seq<Bookmark>, calls: seq<Call>)

  /** `addBookmark`: returns the first existing bookmark of the user for the
      job, and creates one only when there is none. */
  function AddBookmark(userId: string, jobId: string, ids: Fresh, store: seq<Bookmark>, o: BookmarkReplies)
    : (r: BookmarkRun)
    ensures o.listFault.None? && |Matching(store, userId, jobId)| > 0 ==>
      r.value == Success(Matching(store, userId, jobId)[0]) && r.store == store && CreatesNothing(r.calls)
    ensures r.value.Success? ==>
      r.value.value in r.store && r.value.value.userId == userId && r.value.value.jobId == jobId
    ensures r.value.Success? ==> r.value.value == Matching(r.store, userId, jobId)[0]
    ensures r.value.Success? ==>
      |Matching(r.store, userId, jobId)| == (if |Matching(store, userId, jobId)| == 0 then 1 else |Matching(store, userId, jobId)|)
    ensures r.value.Failure? ==> r.store == store && r.value.error == Wrapped(AddBookmarkFailed)
    ensures r.value.Failure? <==> o.listFault.Some? || (|Matching(store, userId, jobId)| == 0 && o.createFault.Some?)
    ensures r.store == store || r.store == store + [r.value.value]
  {
    var calls := [DbListDocuments(Bookmarks)];
    if o.listFault.Some? then BookmarkRun(Failure(Wrapped(AddBookmarkFailed)), store, calls)
    else
      var existing := Matching(store, userId, jobId);
      if |existing| > 0 then BookmarkRun(Success(existing[0]), store, calls)
      else
        var calls' := calls + [DbCreateDocument(Bookmarks, ids.documentId)];
        if o.createFault.Some? then BookmarkRun(Failure(Wrapped(AddBookmarkFailed)), store, calls')
        else
          var b := Bookmark(ids.documentId, userId, jobId, ids.now, ids.bookmarkId);
          MatchingAfterAppend(store, b, userId, jobId);
          BookmarkRun(Success(b), store + [b], calls')
  }

  lemma MatchingAfterAppend(store: seq<Bookmark>, b: Bookmark, userId: string, jobId: string)
    requires b.userId == userId && b.jobId == jobId
    ensures Matching(store + [b], userId, jobId) == Matching(store, userId, jobId) + [b]
  {
    FilterAppend(store, b, (x: Bookmark) => x.userId == userId && x.jobId == jobId);
  }

  /** Adding the same bookmark again returns the bookmark already there and
      writes nothing. */
  lemma AddBookmarkIdempotent(userId: string, jobId: string, f1: Fresh, f2: Fresh, store: seq<Bookmark>,
                              o1: BookmarkReplies, o2: BookmarkReplies)
    requires AddBookmark(userId, jobId, f1, store, o1).value.Success?
    requires o2.listFault.None?
    ensures var r1 := AddBookmark(userId, jobId, f1, store, o1);
      var r2 := AddBookmark(userId, jobId, f2, r1.store, o2);
      r2.value == r1.value && r2.store == r1.store && CreatesNothing(r2.calls)
  {
  }

  // ----------------------------------------------- safeGet / safeList

  datatype SafeGetReplies = SafeGetReplies(
    validate: SessionApi.ValidateReplies,
    get: Reply<Document>,
    revalidate: SessionApi.ValidateReplies,
    retry: Reply<Document>)

  /** `safeGetDocument`: validates the session (ignoring the verdict), then
      fetches. A 404 yields `defaultValue`; a 401 is retried once if a second
      validation says true; anything else, including a failed retry, rethrows
      the ORIGINAL error. */
  function SafeGetDocument(c: Collection, id: string, defaultValue: Option<Document>, o: SafeGetReplies)
    : (r: Run<Result<Option<Document>>>)
    ensures o.get.Ok? ==> r.value == Success(Some(o.get.value))
    ensures o.get.Fail? && o.get.code == NotFound ==> r.value == Success(defaultValue)
    ensures o.get.Fail? && o.get.code == Unauthorized ==>
      r.value == if SessionApi.ValidateSession(o.revalidate).value && o.retry.Ok?
                 then Success(Some(o.retry.value)) else Failure(ApiError(Unauthorized))
    ensures r.value.Failure? ==> o.get.Fail? && r.value.error == ApiError(o.get.code)
    ensures o.get.Fail? && o.get.code != NotFound && o.get.code != Unauthorized ==> r.value.Failure?
    ensures CreatesNothing(r.calls)
    // one fetch, and a second one only after a 401 and a successful revalidation
    ensures !(o.get.Fail? && o.get.code == Unauthorized) ==>
      r.calls == SessionApi.ValidateSession(o.validate).calls + [DbGetDocument(c, id)]
    ensures o.get.Fail? && o.get.code == Unauthorized ==>
      var again := SessionApi.ValidateSession(o.revalidate);
      r.calls == SessionApi.ValidateSession(o.validate).calls + [DbGetDocument(c, id)] + again.calls
                 + (if again.value then [DbGetDocument(c, id)] else [])
  {
    var v := SessionApi.ValidateSession(o.validate);
    var calls := v.calls + [DbGetDocument(c, id)];
    match o.get
    case Ok(d) => Run(Success(Some(d)), calls)
    case Fail(code) =>
      if code == NotFound then Run(Success(defaultValue), calls)
      else if code != Unauthorized then Run(Failure(ApiError(code)), calls)
      else
        var v' := SessionApi.ValidateSession(o.revalidate);
        if !v'.value then Run(Failure(ApiError(code)), calls + v'.calls)
        else
          var calls' := calls + v'.calls + [DbGetDocument(c, id)];
          match o.retry
          case Ok(d) => Run(Success(Some(d)), calls')
          case Fail(_) => Run(Failure(ApiError(code)), calls')
  }

  datatype DocumentList = DocumentList(documents: seq<Document>, total: int)

  datatype SafeListReplies = SafeListReplies(
    validate: SessionApi.ValidateReplies,
    list: Reply<DocumentList>,
    revalidate: SessionApi.ValidateReplies,
    retry: Reply<DocumentList>)

  /** `safeListDocuments`: never throws; on failure the list is empty. A 401 is
      retried once if a second validation says true. */
  function SafeListDocuments(c: Collection, o: SafeListReplies): (r: Run<DocumentList>)
    ensures o.list.Ok? ==> r.value == o.list.value
    ensures o.list.Fail? && o.list.code != Unauthorized ==> r.value == DocumentList([], 0)
    ensures o.list.Fail? && o.list.code == Unauthorized ==>
      r.value == if SessionApi.ValidateSession(o.revalidate).value && o.retry.Ok?
                 then o.retry.value else DocumentList([], 0)
    ensures r.value != DocumentList([], 0) ==> (o.list.Ok? && r.value == o.list.value) || (o.retry.Ok? && r.value == o.retry.value)
    ensures CreatesNothing(r.calls)
    // one listing, and a second one only after a 401 and a successful revalidation
    ensures !(o.list.Fail? && o.list.code == Unauthorized) ==>
      r.calls == SessionApi.ValidateSession(o.validate).calls + [DbListDocuments(c)]
    ensures o.list.Fail? && o.list.code == Unauthorized ==>
      var again := SessionApi.ValidateSession(o.revalidate);
      r.calls == SessionApi.ValidateSession(o.validate).calls + [DbListDocuments(c)] + again.calls
                 + (if again.value then [DbListDocuments(c)] else [])
  {
    var v := SessionApi.ValidateSession(o.validate);
    var calls := v.calls + [DbListDocuments(c)];
    match o.list
    case Ok(l) => Run(l, calls)
    case Fail(code) =>
      if code != Unauthorized then Run(DocumentList([], 0), calls)
      else
        var v' := SessionApi.ValidateSession(o.revalidate);
        if !v'.value then Run(DocumentList([], 0), calls + v'.calls)
        else
          var calls' := calls + v'.calls + [DbListDocuments(c)];
          match o.retry
          case Ok(l) => Run(l, calls')
          case Fail(_) => Run(DocumentList([], 0), calls')
  }
}

=== FILE: guest_session.dfy ===
/** `src/utils/guestSession.ts`: the guest fallback guarded by a module-level
    re-entrancy flag, and the anonymous-user predicates. The flag is modelled
    as sequential state threaded through the call. */
module GuestSession {
  import opened Js
  import opened Backend
  import SessionApi

  /** The module-level `anonymousSessionAttemptInProgress` flag. */
  datatype GuestState = GuestState(attemptInProgress: bool)

  /** The replies `ensureGuestSession` may consume, in call order. */
  datatype GuestReplies = GuestReplies(
    validate: SessionApi.ValidateReplies,
    getIfValid: Reply<User>,
    anonymous: SessionApi.AnonymousReplies,
    getAfterAnonymous: Reply<User>)

  datatype GuestRun = GuestRun(user: Option<User>, state: GuestState, calls: seq<Call>)

  /** The session is valid and the current user could be read. */
  predicate ValidUserRead(o: GuestReplies) {
    SessionApi.ValidateSession(o.validate).value && o.getIfValid.Ok?
  }

  /** `ensureGuestSession`: the current user when the session validates, else
      a new anonymous session's user. Returns null while another attempt is in
      progress; never throws. The flag is raised on entry and lowered on every
      exit path. */
  function EnsureGuestSession(s: GuestState, o: GuestReplies): (r: GuestRun)
    ensures s.attemptInProgress ==> r == GuestRun(None, s, [])
    ensures !s.attemptInProgress ==> !r.state.attemptInProgress
    ensures !s.attemptInProgress && ValidUserRead(o) ==>
      r.user == Some(o.getIfValid.value) && AccountCreateAnonymousSession !in r.calls
    ensures AccountCreateAnonymousSession in r.calls ==> !s.attemptInProgress && !ValidUserRead(o)
    ensures r.user.Some? ==> |r.calls| > 0 && r.calls[|r.calls| - 1] == AccountGet
    ensures !s.attemptInProgress && !ValidUserRead(o) ==>
      (r.user.Some? <==> SessionApi.CreateAnonymousSession(o.anonymous).value.Success? && o.getAfterAnonymous.Ok?)
    ensures !s.attemptInProgress && !ValidUserRead(o) && r.user.Some? ==> r.user == Some(o.getAfterAnonymous.value)
  {
    if s.attemptInProgress then GuestRun(None, s, [])
    else
      var done := GuestState(false);
      var v := SessionApi.ValidateSession(o.validate);
      var calls := if v.value then v.calls + [AccountGet] else v.calls;
      if v.value && o.getIfValid.Ok? then GuestRun(Some(o.getIfValid.value), done, calls)
      else
        var a := SessionApi.CreateAnonymousSession(o.anonymous);
        if a.value.Failure? then GuestRun(None, done, calls + a.calls)
        else
          match o.getAfterAnonymous
          case Ok(u) => GuestRun(Some(u), done, calls + a.calls + [AccountGet])
          case Fail(_) => GuestRun(None, done, calls + a.calls + [AccountGet])
  }

  /** A completed attempt never blocks the next one: a second call behaves as
      if it were the first. */
  lemma CompletedAttemptDoesNotBlock(o1: GuestReplies, o2: GuestReplies)
    ensures var first := EnsureGuestSession(GuestState(false), o1);
      EnsureGuestSession(first.state, o2) == EnsureGuestSession(GuestState(false), o2)
  {
  }

  /** `handleOAuthFailure`: the guest fallback after a failed OAuth redirect.
      Its catch never fires, since the fallback itself never throws: the
      result is null exactly when an attempt is in progress or no user could
      be read, either directly or after creating an anonymous session. */
  function HandleOAuthFailure(s: GuestState, o: GuestReplies): (r: GuestRun)
    ensures s.attemptInProgress ==> r == GuestRun(None, s, [])
    ensures !s.attemptInProgress ==> !r.state.attemptInProgress
    ensures r.user.None? <==>
      || s.attemptInProgress
      || (!ValidUserRead(o) &&
          !(SessionApi.CreateAnonymousSession(o.anonymous).value.Success? && o.getAfterAnonymous.Ok?))
    ensures !s.attemptInProgress && ValidUserRead(o) ==> r.user == Some(o.getIfValid.value)
    ensures !s.attemptInProgress && !ValidUserRead(o) && r.user.Some? ==> r.user == Some(o.getAfterAnonymous.value)
    ensures r.user.Some? ==> |r.calls| > 0 && r.calls[|r.calls| - 1] == AccountGet
    ensures AccountCreateAnonymousSession in r.calls ==> !ValidUserRead(o)
  {
    EnsureGuestSession(s, o)
  }

  /** `isAnonymousUser`: null is not anonymous; a user is when any of its
      anonymous markers is present. */
  function IsAnonymousUser(user: Option<User>): (b: bool)
    ensures user.None? ==> !b
    ensures user.Some? ==> (b <==>
      || "anonymous" in user.value.labels
      || StartsWith(user.value.id, "anon_")
      || user.value.status == Some(false)
      || user.value.provider == "anonymous")
  {
    match user
    case None => false
    case Some(u) =>
      "anonymous" in u.labels || StartsWith(u.id, "anon_") || u.status == Some(false) || u.provider == "anonymous"
  }

  /** `shouldShowSignUpPrompt`: prompt when nobody is signed in or the user is anonymous. */
  function ShouldShowSignUpPrompt(user: Option<User>): (b: bool)
    ensures user.None? ==> b
    ensures user.Some? ==> (b <==> IsAnonymousUser(user))
  {
    user.None? || IsAnonymousUser(user)
  }

  /** A user standing for a connected wallet is never taken for an anonymous
      one, so it is never prompted to sign up. */
  lemma WalletUserIsNotAnonymous(address: string)
    ensures !IsAnonymousUser(Some(WalletUser(address)))
    ensures !ShouldShowSignUpPrompt(Some(WalletUser(address)))
  {
    var u := WalletUser(address);
    assert u.id[0] == 'w';
  }
}

=== FILE: integration.dfy ===
/** `src/services/integration.ts`: paying through the payment service and
    recording the payment in the database. The payment service, the crypto
    recorder and the database are not modelled: each is an effect appended to
    a trace, and whether it throws is an input. */
module Integration {
  import opened Js

  /** What a `catch` can receive: an `Error` with its message, or any other
      thrown value. */
  datatype Thrown = ErrorWith(message: string) | NonError

  /** A call that resolved to `value` or threw. */
  datatype Attempt<+T> = Done(value: T) | Threw(thrown: Thrown)

  /** The request handed to the payment service. `amount` is a whole number
      here; `description` is `None` when the caller passed none. */
  datatype PaymentRequest = PaymentRequest(amount: int, currency: string, payMethod: string, description: Option<string>)

  datatype CryptoDetails = CryptoDetails(txHash: string, fromAddress: string, toAddress: string, value: int, network: string)

  datatype PaymentData = PaymentData(status: string, transactionId: string, cryptoDetails: Option<CryptoDetails>)

  /** The payment service's reply; `error` is "" when absent. */
  datatype PaymentResult = PaymentResult(success: bool, data: Option<PaymentData>, error: string)

  /** One outside effect, in the order it was started. */
  datatype Effect =
    | Pay(request: PaymentRequest)
    | RecordTransaction(userId: string, amount: int, kind: string, status: string, transactionId: string)
    | RecordCrypto(userId: string, txHash: string, fromAddress: string, toAddress: string, value: string, network: string)
    | Notify(userId: string, message: string, kind: string, read: bool)

  /** `{ success, transactionId?, error? }` */
  datatype Outcome = Outcome(success: bool, transactionId: Option<string>, error: Option<string>)

  /** How each outside call settles, in call order. A write fault is the
      value it throws. */
  datatype PaymentReplies = PaymentReplies(
    payment: Attempt<PaymentResult>,
    recordTransaction: Option<Thrown>,
    recordCrypto: Option<Thrown>,
    notify: Option<Thrown>)

  datatype PaymentRun = PaymentRun(outcome: Outcome, effects: seq<Effect>)

  const PaymentFailed := "Payment processing failed"
  const UnknownError := "Unknown error processing payment"
  const AddFundsDescription := "Add funds to account"

  /** The text the catch block reports for a thrown value. */
  function ErrorMessage(t: Thrown): (m: string)
    ensures t.ErrorWith? ==> m == t.message
    ensures t.NonError? ==> m == UnknownError
  {
    match t
    case ErrorWith(message) => message
    case NonError => UnknownError
  }

  /** The notification text for a processed payment. */
  function PaymentMessage(amount: int, currency: string): string {
    MessageStart + (IntToString(amount) + " " + (currency + MessageEnd))
  }

  const MessageStart := "Your payment of "
  const MessageEnd := " was processed successfully."

  function IsSpace(c: char): bool {
    c == ' '
  }

  /** Text cut at its first space: a word with no space in it, a space, and
      the rest, comes apart in exactly one way. */
  lemma SplitAtFirstSpace(w1: string, r1: string, w2: string, r2: string)
    requires forall k | 0 <= k < |w1| :: !IsSpace(w1[k])
    requires forall k | 0 <= k < |w2| :: !IsSpace(w2[k])
    requires w1 + " " + r1 == w2 + " " + r2
    ensures w1 == w2 && r1 == r2
  {
    var s := w1 + " " + r1;
    assert forall k | 0 <= k < |w1| :: s[k] == w1[k];
    assert forall k | 0 <= k < |w2| :: s[k] == w2[k];
    assert IsSpace(s[|w1|]) && IsSpace(s[|w2|]);
    assert FindFirst(s, IsSpace) == Some(|w1|) == Some(|w2|);
    assert w1 == s[..|w1|] == w2;
    assert r1 == s[|w1| + 1..] == r2;
  }

  /** The notification text names the amount and the currency it was sent
      for: different payments are never announced with the same words. */
  lemma PaymentMessageInjective(a: int, c1: string, b: int, c2: string)
    requires PaymentMessage(a, c1) == PaymentMessage(b, c2)
    ensures a == b && c1 == c2
  {
    var t1 := IntToString(a) + " " + (c1 + MessageEnd);
    var t2 := IntToString(b) + " " + (c2 + MessageEnd);
    assert t1 == PaymentMessage(a, c1)[|MessageStart|..];
    assert t2 == PaymentMessage(b, c2)[|MessageStart|..];
    SplitAtFirstSpace(IntToString(a), c1 + MessageEnd, IntToString(b), c2 + MessageEnd);
    IntToStringInjective(a, b);
    assert c1 == (c1 + MessageEnd)[..|c1|];
    assert c2 == (c2 + MessageEnd)[..|c2|];
  }

  /** A payment is usable when it succeeded and carries data. */
  predicate Paid(p: Attempt<PaymentResult>) {
    p.Done? && p.value.success && p.value.data.Some?
  }

  /** The crypto details are recorded only for a crypto method. */
  predicate RecordsCrypto(payMethod: string, p: Attempt<PaymentResult>) {
    Paid(p) && Includes(payMethod, "crypto") && p.value.data.value.cryptoDetails.Some?
  }

  /** The position of each kind of effect in the fixed order. */
  function Stage(e: Effect): nat {
    match e
    case Pay(_) => 0
    case RecordTransaction(_, _, _, _, _) => 1
    case RecordCrypto(_, _, _, _, _, _) => 2
    case Notify(_, _, _, _) => 3
  }

  /** The trace starts with the payment and never goes back to an earlier
      stage or repeats one. */
  predicate InOrder(effects: seq<Effect>) {
    && |effects| > 0 && effects[0].Pay?
    && forall i, j | 0 <= i < j < |effects| :: Stage(effects[i]) < Stage(effects[j])
  }

  /** The optional crypto record and what follows it. */
  function AfterTransaction(userId: string, amount: int, currency: string, payMethod: string, data: PaymentData, o: PaymentReplies)
    : (r: PaymentRun)
    ensures |r.effects| > 0 && r.effects[|r.effects| - 1].Notify? ==> r.effects[|r.effects| - 1] == Notify(userId, PaymentMessage(amount, currency), "payment", false)
    ensures forall i | 0 <= i < |r.effects| :: Stage(r.effects[i]) >= 2
    ensures forall i, j | 0 <= i < j < |r.effects| :: Stage(r.effects[i]) < Stage(r.effects[j])
    ensures (|r.effects| > 0 && r.effects[0].RecordCrypto?) <==>
      Includes(payMethod, "crypto") && data.cryptoDetails.Some?
  {
    var crypto :=
      if Includes(payMethod, "crypto") && data.cryptoDetails.Some? then
        var c := data.cryptoDetails.value;
        [RecordCrypto(userId, c.txHash, c.fromAddress, c.toAddress, IntToString(c.value), c.network)]
      else [];
    var notify := Notify(userId, PaymentMessage(amount, currency), "payment", false);
    if crypto != [] && o.recordCrypto.Some? then
      PaymentRun(Outcome(false, None, Some(ErrorMessage(o.recordCrypto.value))), crypto)
    else if o.notify.Some? then
      PaymentRun(Outcome(false, None, Some(ErrorMessage(o.notify.value))), crypto + [notify])
    else PaymentRun(Outcome(true, Some(data.transactionId), None), crypto + [notify])
  }

  /** `processAndRecordPayment`: pays, records the transaction, records the
      crypto details of a crypto payment, and notifies the user, in that
      order. It never throws: whatever is thrown becomes a failed outcome
      whose message is the error's. */
  function ProcessAndRecordPayment(userId: string, amount: int, currency: string, payMethod: string,
                                   description: Option<string>, o: PaymentReplies): (r: PaymentRun)
    ensures InOrder(r.effects)
    ensures r.effects[0] == Pay(PaymentRequest(amount, currency, payMethod, description))
    ensures r.outcome.success <==> r.outcome.error.None?
    // an unusable payment writes nothing
    ensures !Paid(o.payment) ==> r.effects == [Pay(PaymentRequest(amount, currency, payMethod, description))] && !r.outcome.success
    ensures o.payment.Done? && !Paid(o.payment) ==>
      r.outcome.error == Some(if o.payment.value.error != "" then o.payment.value.error else PaymentFailed)
    ensures o.payment.Threw? ==> r.outcome.error == Some(ErrorMessage(o.payment.thrown))
    // the transaction record carries the payment's status and id
    ensures Paid(o.payment) ==>
      var data := o.payment.value.data.value;
      |r.effects| > 1 && r.effects[1] == RecordTransaction(userId, amount, payMethod, data.status, data.transactionId)
    ensures r.outcome.success ==>
      && Paid(o.payment)
      && r.outcome.transactionId == Some(o.payment.value.data.value.transactionId)
      && r.effects[|r.effects| - 1] == Notify(userId, PaymentMessage(amount, currency), "payment", false)
    ensures !r.outcome.success ==> r.outcome.transactionId.None?
    ensures (exists i | 0 <= i < |r.effects| :: r.effects[i].RecordCrypto?) <==>
      RecordsCrypto(payMethod, o.payment) && o.recordTransaction.None?
    ensures r.outcome.success <==>
      && Paid(o.payment) && o.recordTransaction.None? && o.notify.None?
      && !(RecordsCrypto(payMethod, o.payment) && o.recordCrypto.Some?)
    // every throw after the payment is reported with its own message
    ensures Paid(o.payment) && o.recordTransaction.Some? ==>
      r.outcome.error == Some(ErrorMessage(o.recordTransaction.value))
    ensures RecordsCrypto(payMethod, o.payment) && o.recordTransaction.None? && o.recordCrypto.Some? ==>
      r.outcome.error == Some(ErrorMessage(o.recordCrypto.value))
    ensures (Paid(o.payment) && o.recordTransaction.None? && o.notify.Some?
             && !(RecordsCrypto(payMethod, o.payment) && o.recordCrypto.Some?)) ==>
      r.outcome.error == Some(ErrorMessage(o.notify.value))
    // the crypto record carries the payment's crypto details, the value as text
    ensures RecordsCrypto(payMethod, o.payment) && o.recordTransaction.None? ==>
      var c := o.payment.value.data.value.cryptoDetails.value;
      |r.effects| > 2 && r.effects[2] == RecordCrypto(userId, c.txHash, c.fromAddress, c.toAddress, IntToString(c.value), c.network)
  {
    var pay := Pay(PaymentRequest(amount, currency, payMethod, description));
    match o.payment
    case Threw(t) => PaymentRun(Outcome(false, None, Some(ErrorMessage(t))), [pay])
    case Done(result) =>
      if !result.success || result.data.None? then
        var message := if result.error != "" then result.error else PaymentFailed;
        PaymentRun(Outcome(false, None, Some(message)), [pay])
      else
        var data := result.data.value;
        var record := RecordTransaction(userId, amount, payMethod, data.status, data.transactionId);
        if o.recordTransaction.Some? then
          PaymentRun(Outcome(false, None, Some(ErrorMessage(o.recordTransaction.value))), [pay, record])
        else
          var rest := AfterTransaction(userId, amount, currency, payMethod, data, o);
          var effects := [pay, record] + rest.effects;
          assert |rest.effects| > 0 && rest.effects[0].RecordCrypto? ==> effects[2].RecordCrypto?;
          PaymentRun(rest.outcome, effects)
  }

  /** `addFunds`: a payment described as adding funds. */
  function AddFunds(userId: string, amount: int, currency: string, paymentMethod: string, o: PaymentReplies): (r: PaymentRun)
    ensures InOrder(r.effects)
    ensures r.effects[0] == Pay(PaymentRequest(amount, currency, paymentMethod, Some(AddFundsDescription)))
    ensures r.outcome.success ==> Paid(o.payment) && r.outcome.transactionId == Some(o.payment.value.data.value.transactionId)
    ensures r.outcome.success <==>
      && Paid(o.payment) && o.recordTransaction.None? && o.notify.None?
      && !(RecordsCrypto(paymentMethod, o.payment) && o.recordCrypto.Some?)
  {
    ProcessAndRecordPayment(userId, amount, currency, paymentMethod, Some(AddFundsDescription), o)
  }

  /** The description reaches only the payment request: two payments that
      differ in nothing else end the same way and make the same writes. */
  lemma DescriptionReachesOnlyThePayment(userId: string, amount: int, currency: string, payMethod: string,
                                         d1: Option<string>, d2: Option<string>, o: PaymentReplies)
    ensures var r1 := ProcessAndRecordPayment(userId, amount, currency, payMethod, d1, o);
      var r2 := ProcessAndRecordPayment(userId, amount, currency, payMethod, d2, o);
      r1.outcome == r2.outcome && r1.effects[1..] == r2.effects[1..]
  {
  }

  /** Adding funds is the plain payment with its fixed description: the same
      outcome and the same writes as any other description. */
  lemma AddFundsIsPlainPayment(userId: string, amount: int, currency: string, payMethod: string,
                               description: Option<string>, o: PaymentReplies)
    ensures var a := AddFunds(userId, amount, currency, payMethod, o);
      var p := ProcessAndRecordPayment(userId, amount, currency, payMethod, description, o);
      a.outcome == p.outcome && a.effects[1..] == p.effects[1..]
  {
    DescriptionReachesOnlyThePayment(userId, amount, currency, payMethod, Some(AddFundsDescription), description, o);
  }

  /** `processJobPayment`: a payment by the `job_payment` payMethod. */
  function ProcessJobPayment(userId: string, jobId: string, amount: int, currency: string, o: PaymentReplies): (r: PaymentRun)
    ensures |r.effects| > 0 && r.effects[0] == Pay(PaymentRequest(amount, currency, "job_payment", Some("Payment for job " + jobId)))
    ensures forall i | 0 <= i < |r.effects| :: !r.effects[i].RecordCrypto?
  {
    NotCrypto("job_payment");
    ProcessAndRecordPayment(userId, amount, currency, "job_payment", Some("Payment for job " + jobId), o)
  }

  /** `processServicePayment`: a payment by the `service_payment` payMethod. */
  function ProcessServicePayment(userId: string, serviceId: string, amount: int, currency: string, o: PaymentReplies)
    : (r: PaymentRun)
    ensures |r.effects| > 0 && r.effects[0] == Pay(PaymentRequest(amount, currency, "service_payment", Some("Payment for service " + serviceId)))
    ensures forall i | 0 <= i < |r.effects| :: !r.effects[i].RecordCrypto?
  {
    NotCrypto("service_payment");
    ProcessAndRecordPayment(userId, amount, currency, "service_payment", Some("Payment for service " + serviceId), o)
  }

  /** Neither fixed method name mentions crypto. */
  lemma NotCrypto(payMethod: string)
    requires payMethod == "job_payment" || payMethod == "service_payment"
    ensures !Includes(payMethod, "crypto")
  {
    assert 'c' !in "job_payment" && "crypto"[0] == 'c';
    assert 'o' !in "service_payment" && "crypto"[5] == 'o';
    if Includes(payMethod, "crypto") {
      IncludesHasEveryChar(payMethod, "crypto");
    }
  }
}

=== FILE: js.dfy ===
/** The pieces of JavaScript value semantics the modelled code relies on:
    optional values (`null`/`undefined`), string truthiness, `startsWith` and
    `includes`, `Array.prototype.find` and `filter`, and the decimal rendering
    of an integer inside a template string. */
module Js {

  /** `null`/`undefined` versus a present value. */
  datatype Option<+T> = None | Some(value: T)

  /** A string is truthy exactly when it is non-empty. Throughout the model an
      absent optional string is represented by "", because every place the
      source reads such a field does so through truthiness or `|| ''`. */
  predicate Truthy(s: string) {
    s != ""
  }

  /** `s.startsWith(prefix)` */
  predicate StartsWith(s: string, prefix: string) {
    |prefix| <= |s| && s[..|prefix|] == prefix
  }

  /** `s.includes(sub)` */
  predicate Includes(s: string, sub: string) {
    exists i | 0 <= i <= |s| - |sub| :: OccursAt(s, sub, i)
  }

  /** `sub` occurs in `s` starting at index `i`. */
  predicate OccursAt(s: string, sub: string, i: int) {
    0 <= i <= |s| - |sub| && s[i..i + |sub|] == sub
  }

  /** Every character of an included string occurs in the including one; used
      to show that a literal does not include another. */
  lemma IncludesHasEveryChar(s: string, sub: string)
    requires Includes(s, sub)
    ensures forall k | 0 <= k < |sub| :: sub[k] in s
  {
  }

  /** `s.findIndex(p)`, with `None` for -1: the index of the FIRST element
      satisfying `p`. `s.find(p)` is `s[i]` for that index. */
  function FindFirst<T>(s: seq<T>, p: T -> bool): (r: Option<nat>)
    ensures r.Some? ==> r.value < |s| && p(s[r.value])
    ensures r.Some? ==> forall j | 0 <= j < r.value :: !p(s[j])
    ensures r.None? <==> forall j | 0 <= j < |s| :: !p(s[j])
    decreases |s|
  {
    if |s| == 0 then None
    else if p(s[0]) then Some(0)
    else
      match FindFirst(s[1..], p)
      case None => None
      case Some(i) => Some(i + 1)
  }

  /** `s.filter(p)`: the elements satisfying `p`, in their original order. */
  function Filter<T>(s: seq<T>, p: T -> bool): (r: seq<T>)
    ensures |r| <= |s|
    ensures forall k | 0 <= k < |r| :: p(r[k]) && r[k] in s
    ensures forall k | 0 <= k < |s| && p(s[k]) :: s[k] in r
    decreases |s|
  {
    if |s| == 0 then []
    else if p(s[0]) then [s[0]] + Filter(s[1..], p)
    else Filter(s[1..], p)
  }

  /** The first element of a filter is the element `find` returns. */
  lemma {:induction false} FilterHeadIsFindFirst<T>(s: seq<T>, p: T -> bool)
    ensures FindFirst(s, p).None? <==> Filter(s, p) == []
    ensures FindFirst(s, p).Some? ==> Filter(s, p)[0] == s[FindFirst(s, p).value]
    decreases |s|
  {
    if |s| > 0 && !p(s[0]) {
      FilterHeadIsFindFirst(s[1..], p);
    }
  }

  /** Filtering distributes over appending one element. */
  lemma {:induction false} FilterAppend<T>(s: seq<T>, x: T, p: T -> bool)
    ensures Filter(s + [x], p) == Filter(s, p) + (if p(x) then [x] else [])
    decreases |s|
  {
    if |s| == 0 {
      assert s + [x] == [x];
    } else {
      assert (s + [x])[1..] == s[1..] + [x];
      FilterAppend(s[1..], x, p);
    }
  }

  /** The characters '0'..'9'. */
  predicate IsDigit(c: char) {
    '0' <= c <= '9'
  }

  function DigitChar(d: nat): (c: char)
    requires d < 10
    ensures IsDigit(c) && (c as int) - ('0' as int) == d
  {
    (('0' as int) + d) as char
  }

  /** Decimal digits of a natural number, most significant first, no leading zero. */
  function NatToString(n: nat): (r: string)
    ensures |r| > 0 && forall k | 0 <= k < |r| :: IsDigit(r[k])
    ensures r[0] == '0' ==> n == 0
    decreases n
  {
    if n < 10 then [DigitChar(n)] else NatToString(n / 10) + [DigitChar(n % 10)]
  }

  /** `${n}` for an integer `n`. */
  function IntToString(n: int): (r: string)
    ensures |r| > 0
    ensures forall k | 0 <= k < |r| :: r[k] == '-' || IsDigit(r[k])
    ensures r[0] == '-' <==> n < 0
    ensures n >= 0 ==> (forall k | 0 <= k < |r| :: IsDigit(r[k])) && DigitsValue(r) == n
    ensures n < 0 ==> |r| > 1 && (forall k | 1 <= k < |r| :: IsDigit(r[k])) && DigitsValue(r[1..]) == -n
  {
    NatToStringRoundTrip(if n < 0 then -n else n);
    if n < 0 then "-" + NatToString(-n) else NatToString(n)
  }

  /** The value of a string of decimal digits: the reading back of `NatToString`. */
  function DigitsValue(s: string): nat
    requires forall k | 0 <= k < |s| :: IsDigit(s[k])
    decreases |s|
  {
    if |s| == 0 then 0
    else DigitsValue(s[..|s| - 1]) * 10 + DigitValue(s[|s| - 1])
  }

  function DigitValue(c: char): (d: nat)
    requires IsDigit(c)
    ensures d < 10
  {
    (c as int) - ('0' as int)
  }

  lemma {:induction false} NatToStringRoundTrip(n: nat)
    ensures DigitsValue(NatToString(n)) == n
    decreases n
  {
    if n >= 10 {
      var s := NatToString(n);
      assert s[..|s| - 1] == NatToString(n / 10);
      NatToStringRoundTrip(n / 10);
    }
  }

  /** Distinct integers render to distinct strings. */
  lemma IntToStringInjective(a: int, b: int)
    requires IntToString(a) == IntToString(b)
    ensures a == b
  {
    var s := IntToString(a);
    if a < 0 {
      assert !IsDigit(s[0]);
      assert b < 0;
      assert s[1..] == NatToString(-a) == NatToString(-b);
      NatToStringRoundTrip(-a);
      NatToStringRoundTrip(-b);
    } else {
      assert IsDigit(s[0]);
      assert b >= 0;
      NatToStringRoundTrip(a);
      NatToStringRoundTrip(b);
    }
  }
}

=== FILE: notifications.dfy ===
/** `src/components/profile/NotificationsSection.tsx`: the notification
    preference records, one per channel, their toggles and enabled counts,
    and the save/close snackbar state. */
module Notifications {
  import opened Js

  /** One channel's preferences, in the source's key order. */
  datatype Preferences = Preferences(
    projectUpdates: bool,
    messages: bool,
    payments: bool,
    marketing: bool,
    systemUpdates: bool)

  /** A key of `Preferences`. */
  datatype Setting = ProjectUpdates | Messages | Payments | Marketing | SystemUpdates

  datatype Channel = Email | Push | Sms

  datatype Settings = Settings(email: Preferences, push: Preferences, sms: Preferences)

  /** `preferences[setting]` */
  function Get(p: Preferences, k: Setting): bool {
    match k
    case ProjectUpdates => p.projectUpdates
    case Messages => p.messages
    case Payments => p.payments
    case Marketing => p.marketing
    case SystemUpdates => p.systemUpdates
  }

  /** The position of a key in `Object.values`. */
  function Index(k: Setting): (i: nat)
    ensures i < 5
  {
    match k
    case ProjectUpdates => 0
    case Messages => 1
    case Payments => 2
    case Marketing => 3
    case SystemUpdates => 4
  }

  /** `Object.values(preferences)` */
  function Values(p: Preferences): (r: seq<bool>)
    ensures |r| == 5
    ensures forall k: Setting :: r[Index(k)] == Get(p, k)
  {
    [p.projectUpdates, p.messages, p.payments, p.marketing, p.systemUpdates]
  }

  /** `{ ...preferences, [setting]: !preferences[setting] }` */
  function Toggle(p: Preferences, k: Setting): (r: Preferences)
    ensures Get(r, k) == !Get(p, k)
    ensures forall k': Setting | k' != k :: Get(r, k') == Get(p, k')
  {
    match k
    case ProjectUpdates => p.(projectUpdates := !p.projectUpdates)
    case Messages => p.(messages := !p.messages)
    case Payments => p.(payments := !p.payments)
    case Marketing => p.(marketing := !p.marketing)
    case SystemUpdates => p.(systemUpdates := !p.systemUpdates)
  }

  /** Toggling the same key twice restores the record. */
  lemma ToggleTwice(p: Preferences, k: Setting)
    ensures Toggle(Toggle(p, k), k) == p
  {
  }

  /** The preferences of one channel. */
  function Of(s: Settings, c: Channel): Preferences {
    match c
    case Email => s.email
    case Push => s.push
    case Sms => s.sms
  }

  /** `handleEmailToggle`, `handlePushToggle` and `handleSmsToggle`: flip one
      key of one channel. */
  function ToggleChannel(s: Settings, c: Channel, k: Setting): (r: Settings)
    ensures Of(r, c) == Toggle(Of(s, c), k)
    ensures forall c': Channel | c' != c :: Of(r, c') == Of(s, c')
  {
    match c
    case Email => s.(email := Toggle(s.email, k))
    case Push => s.(push := Toggle(s.push, k))
    case Sms => s.(sms := Toggle(s.sms, k))
  }

  /** The identity, as the predicate handed to `filter(Boolean)`. */
  function Enabled(b: bool): bool {
    b
  }

  /** `countEnabledNotifications`: the length of the filtered values. */
  function CountEnabled(p: Preferences): (n: nat)
    ensures n <= 5
  {
    |Filter(Values(p), Enabled)|
  }

  // ------------------------------------------------------------ counting

  /** The number of true entries, counted one by one: the reference the
      filtered length is compared with. */
  function CountTrue(s: seq<bool>): nat
    decreases |s|
  {
    if |s| == 0 then 0 else (if s[0] then 1 else 0) + CountTrue(s[1..])
  }

  /** The filtered length is the number of true entries. */
  lemma {:induction false} FilterCountsTrue(s: seq<bool>)
    ensures |Filter(s, Enabled)| == CountTrue(s)
    decreases |s|
  {
    if |s| > 0 {
      FilterCountsTrue(s[1..]);
    }
  }

  /** Overwriting one entry changes the count by what was removed and added. */
  lemma {:induction false} CountTrueUpdate(s: seq<bool>, i: nat, x: bool)
    requires i < |s|
    ensures CountTrue(s[i := x]) == CountTrue(s) - (if s[i] then 1 else 0) + (if x then 1 else 0)
    decreases |s|
  {
    if i > 0 {
      assert s[i := x][1..] == s[1..][i - 1 := x];
      CountTrueUpdate(s[1..], i - 1, x);
    }
  }

  /** The enabled count is the number of keys that are on. */
  lemma CountEnabledIsTrueFields(p: Preferences)
    ensures CountEnabled(p) == (if p.projectUpdates then 1 else 0) + (if p.messages then 1 else 0)
      + (if p.payments then 1 else 0) + (if p.marketing then 1 else 0) + (if p.systemUpdates then 1 else 0)
  {
    var v := Values(p);
    FilterCountsTrue(v);
    assert v == [p.projectUpdates, p.messages, p.payments, p.marketing, p.systemUpdates];
    assert v[4..][1..] == [];
    assert CountTrue(v[4..]) == (if p.systemUpdates then 1 else 0);
    assert v[3..][1..] == v[4..];
    assert CountTrue(v[3..]) == (if p.marketing then 1 else 0) + CountTrue(v[4..]);
    assert v[2..][1..] == v[3..];
    assert CountTrue(v[2..]) == (if p.payments then 1 else 0) + CountTrue(v[3..]);
    assert v[1..][1..] == v[2..];
    assert CountTrue(v[1..]) == (if p.messages then 1 else 0) + CountTrue(v[2..]);
  }

  /** Each toggle moves its channel's count by exactly one, down when the key
      was on and up when it was off. */
  lemma ToggleChangesCountByOne(p: Preferences, k: Setting)
    ensures CountEnabled(Toggle(p, k)) == CountEnabled(p) + (if Get(p, k) then -1 else 1)
  {
    assert Values(Toggle(p, k)) == Values(p)[Index(k) := !Get(p, k)];
    FilterCountsTrue(Values(p));
    FilterCountsTrue(Values(Toggle(p, k)));
    CountTrueUpdate(Values(p), Index(k), !Get(p, k));
  }

  // ------------------------------------------------------- initial state

  /** The initial records of the three channels. */
  const InitialEmail := Preferences(true, true, true, false, true)
  const InitialPush := Preferences(true, true, true, false, false)
  const InitialSms := Preferences(false, false, true, false, false)

  function InitialSettings(): (s: Settings)
    ensures Of(s, Email) == InitialEmail && Of(s, Push) == InitialPush && Of(s, Sms) == InitialSms
  {
    Settings(InitialEmail, InitialPush, InitialSms)
  }

  /** The counts first shown: 4/5, 3/5 and 1/5. */
  lemma InitialCounts()
    ensures CountEnabled(InitialSettings().email) == 4
    ensures CountEnabled(InitialSettings().push) == 3
    ensures CountEnabled(InitialSettings().sms) == 1
  {
  }

  // ---------------------------------------------------------- save state

  datatype Severity = SuccessSeverity | ErrorSeverity

  datatype Snackbar = Snackbar(open: bool, severity: Severity, message: string)

  datatype NotificationsView = NotificationsView(settings: Settings, snackbar: Snackbar, loading: bool)

  const SavedMessage := "Notification preferences saved successfully"
  const SaveFailedMessage := "Failed to save notification preferences"

  function InitialView(): (v: NotificationsView)
    ensures v.settings == InitialSettings() && !v.loading && !v.snackbar.open
  {
    NotificationsView(InitialSettings(), Snackbar(false, SuccessSeverity, ""), false)
  }

  /** `handleSaveSettings`: shows the outcome and ends loading; the settings
      are not touched. `failed` is whether the awaited save rejected: the
      stand-in delay the source awaits never does, so there it is false. */
  function SaveSettings(v: NotificationsView, failed: bool): (r: NotificationsView)
    ensures !r.loading && r.snackbar.open && r.settings == v.settings
    ensures !failed ==> r.snackbar.severity == SuccessSeverity && r.snackbar.message == SavedMessage
    ensures failed ==> r.snackbar.severity == ErrorSeverity && r.snackbar.message == SaveFailedMessage
  {
    if failed then NotificationsView(v.settings, Snackbar(true, ErrorSeverity, SaveFailedMessage), false)
    else NotificationsView(v.settings, Snackbar(true, SuccessSeverity, SavedMessage), false)
  }

  /** `handleCloseSnackbar`: hides the snackbar, keeping its severity and message. */
  function CloseSnackbar(v: NotificationsView): (r: NotificationsView)
    ensures !r.snackbar.open
    ensures r.snackbar.severity == v.snackbar.severity && r.snackbar.message == v.snackbar.message
    ensures r.settings == v.settings && r.loading == v.loading
  {
    v.(snackbar := v.snackbar.(open := false))
  }

  /** Closing after a save hides the snackbar without losing what it said,
      and closing twice is closing once. */
  lemma CloseAfterSave(v: NotificationsView)
    ensures var closed := CloseSnackbar(SaveSettings(v, false));
      && !closed.snackbar.open && closed.snackbar.message == SavedMessage
      && CloseSnackbar(closed) == closed
  {
  }
}

=== FILE: session_api.dfy ===
/** The account/session functions of `src/utils/api.ts`: sign-in and sign-out
    sequencing, the session-recovery ladder (`ensureSession`), the 401-only
    refresh (`validateSession`), anonymous-session creation and conversion,
    and the OAuth token refresh window. */
module SessionApi {
  import opened Js
  import opened Backend

  const SignUpFailed := "Failed to create user"
  const SignInFailed := "Failed to sign in"
  const AnonymousSessionFailed := "Failed to create anonymous session"
  const ConversionFailed := "Failed to convert anonymous account"

  /** An OAuth token expiring in fewer than this many seconds is refreshed. */
  const RefreshWindowSeconds: int := 300

  // ---------------------------------------------------------------- signUp

  datatype SignUpReplies = SignUpReplies(create: Reply<User>, verification: Reply<()>)

  /** `signUp`: creates the account, then asks for a verification email whose
      failure is swallowed. */
  function SignUp(email: string, password: string, name: string, o: SignUpReplies): (r: Run<Result<User>>)
    ensures r.value.Success? <==> o.create.Ok?
    ensures r.value.Success? ==> r.value.value == o.create.value
    ensures r.value.Failure? ==> r.value.error == Wrapped(SignUpFailed)
    ensures |r.calls| > 0 && r.calls[0] == AccountCreate(email, name)
    ensures AccountCreateVerification in r.calls <==> o.create.Ok?
  {
    match o.create
    case Fail(_) => Run(Failure(Wrapped(SignUpFailed)), [AccountCreate(email, name)])
    case Ok(u) => Run(Success(u), [AccountCreate(email, name), AccountCreateVerification])
  }

  // ---------------------------------------------------------- signOut, signIn

  datatype SignOutReplies = SignOutReplies(getSession: Reply<Session>, deleteSession: Reply<()>)

  /** `signOut`: deletes the current session when there is one. A failing
      lookup or deletion is swallowed, so it always reports success. */
  function SignOut(o: SignOutReplies): (r: Run<bool>)
    ensures r.value
    ensures |r.calls| > 0 && r.calls[0] == AccountGetSession
    ensures AccountDeleteSession in r.calls <==> o.getSession.Ok?
    ensures forall i | 0 <= i < |r.calls| :: r.calls[i] in {AccountGetSession, AccountDeleteSession}
  {
    if o.getSession.Ok? then Run(true, [AccountGetSession, AccountDeleteSession])
    else Run(true, [AccountGetSession])
  }

  datatype SignInReplies = SignInReplies(signOut: SignOutReplies, createSession: Reply<Session>, get: Reply<User>)

  /** `signIn`: always signs out first, then creates the password session and
      reads the user back. */
  function SignIn(email: string, password: string, o: SignInReplies): (r: Run<Result<User>>)
    ensures var pre := SignOut(o.signOut).calls;
      && |pre| < |r.calls|
      && r.calls[..|pre|] == pre
      && r.calls[|pre|] == AccountCreateEmailPasswordSession(email)
    ensures r.value.Success? <==> o.createSession.Ok? && o.get.Ok?
    ensures r.value.Success? ==> r.value.value == o.get.value
    ensures r.value.Failure? ==> r.value.error == Wrapped(SignInFailed)
  {
    var calls := SignOut(o.signOut).calls + [AccountCreateEmailPasswordSession(email)];
    if o.createSession.Fail? then Run(Failure(Wrapped(SignInFailed)), calls)
    else
      match o.get
      case Ok(u) => Run(Success(u), calls + [AccountGet])
      case Fail(_) => Run(Failure(Wrapped(SignInFailed)), calls + [AccountGet])
  }

  /** `listSessions`: never throws; a failed listing reads as no sessions. */
  function ListSessions(o: Reply<SessionList>): (r: Run<SessionList>)
    ensures r.calls == [AccountListSessions]
    ensures o.Ok? ==> r.value == o.value
    ensures o.Fail? ==> r.value.total == 0 && r.value.sessions == []
  {
    match o
    case Ok(l) => Run(l, [AccountListSessions])
    case Fail(_) => Run(SessionList(0, []), [AccountListSessions])
  }

  // ---------------------------------------------------- anonymous sessions

  datatype AnonymousReplies = AnonymousReplies(get: Reply<User>, create: Reply<Session>)

  /** What `createAnonymousSession` resolves to: the user already signed in,
      or the freshly created anonymous session. */
  datatype AnonymousOutcome = ExistingUser(user: User) | NewSession(session: Session)

  /** `createAnonymousSession`: never duplicates a live session. */
  function CreateAnonymousSession(o: AnonymousReplies): (r: Run<Result<AnonymousOutcome>>)
    ensures |r.calls| > 0 && r.calls[0] == AccountGet
    ensures o.get.Ok? ==> r.value == Success(ExistingUser(o.get.value))
    ensures AccountCreateAnonymousSession in r.calls <==> o.get.Fail?
    ensures r.value.Failure? <==> o.get.Fail? && o.create.Fail?
    ensures r.value.Failure? ==> r.value.error == Wrapped(AnonymousSessionFailed)
    ensures o.get.Fail? && o.create.Ok? ==> r.value == Success(NewSession(o.create.value))
  {
    match o.get
    case Ok(u) => Run(Success(ExistingUser(u)), [AccountGet])
    case Fail(_) =>
      var calls := [AccountGet, AccountCreateAnonymousSession];
      match o.create
      case Ok(s) => Run(Success(NewSession(s)), calls)
      case Fail(_) => Run(Failure(Wrapped(AnonymousSessionFailed)), calls)
  }

  // ---------------------------------------------------------- ensureSession

  /** The replies `ensureSession` may consume, one per call site, in order. */
  datatype EnsureReplies = EnsureReplies(
    get: Reply<User>,
    list: Reply<SessionList>,
    update: Reply<Session>,
    getAfterUpdate: Reply<User>,
    anonymous: AnonymousReplies,
    getAfterAnonymous: Reply<User>)

  /** `u` is what the call answered by `reply` resolved to. */
  predicate ReadBy(u: User, reply: Reply<User>) {
    reply.Ok? && reply.value == u
  }

  /** The first listed session was reactivated and read back. */
  predicate Reactivated(o: EnsureReplies) {
    o.list.Ok? && HasFirstSession(o.list.value) && o.update.Ok? && o.getAfterUpdate.Ok?
  }

  /** The middle rung of the ladder: list the sessions, refresh the first one
      and read the user back. Any failure yields `None` (it is caught). */
  function Reactivate(list: Reply<SessionList>, update: Reply<Session>, get: Reply<User>): (r: Run<Option<User>>)
    ensures |r.calls| > 0 && r.calls[0] == AccountListSessions
    ensures r.value.Some? <==> list.Ok? && HasFirstSession(list.value) && update.Ok? && get.Ok?
    ensures r.value.Some? ==> r.value.value == get.value
    ensures RefreshesOnlyFirst(r.calls, list)
    ensures CreatesNothing(r.calls)
  {
    match list
    case Fail(_) => Run(None, [AccountListSessions])
    case Ok(l) =>
      if !HasFirstSession(l) then Run(None, [AccountListSessions])
      else
        var calls := [AccountListSessions, AccountUpdateSession(l.sessions[0].id)];
        match update
        case Fail(_) => Run(None, calls)
        case Ok(_) =>
          match get
          case Ok(u) => Run(Some(u), calls + [AccountGet])
          case Fail(_) => Run(None, calls + [AccountGet])
  }

  /** `ensureSession`: current user, else reactivate the first listed session,
      else an anonymous session; the user is always read back by a final
      `account.get()`. When the anonymous fallback fails its error is
      rethrown, so the `Failure` branch is reachable. */
  function EnsureSession(o: EnsureReplies): (r: Run<Result<User>>)
    ensures |r.calls| > 0 && r.calls[0] == AccountGet
    // rung 1: a live session short-circuits everything
    ensures o.get.Ok? ==> r == Run(Success(o.get.value), [AccountGet])
    // rung 2: only sessions[0] is ever refreshed, at most once
    ensures RefreshesOnlyFirst(r.calls, o.list)
    ensures o.get.Fail? && Reactivated(o) ==>
      r.value == Success(o.getAfterUpdate.value) && AccountCreateAnonymousSession !in r.calls
    // rung 3: reached exactly when rungs 1 and 2 failed
    ensures AccountCreateAnonymousSession in r.calls ==> o.get.Fail? && !Reactivated(o)
    ensures o.get.Fail? && !Reactivated(o) ==>
      var a := CreateAnonymousSession(o.anonymous);
      && (a.value.Failure? ==> r.value == Failure(a.value.error))
      && (a.value.Success? ==> r.value == Rethrown(o.getAfterAnonymous))
      && (o.anonymous.get.Fail? ==> AccountCreateAnonymousSession in r.calls)
    // whatever succeeded, the user returned is the one a final account.get() read
    ensures r.value.Success? ==> r.calls[|r.calls| - 1] == AccountGet
    ensures r.value.Success? ==>
      ReadBy(r.value.value, o.get) || ReadBy(r.value.value, o.getAfterUpdate)
      || ReadBy(r.value.value, o.getAfterAnonymous)
  {
    match o.get
    case Ok(u) => Run(Success(u), [AccountGet])
    case Fail(_) =>
      var recovery := Reactivate(o.list, o.update, o.getAfterUpdate);
      var calls := [AccountGet] + recovery.calls;
      if recovery.value.Some? then Run(Success(recovery.value.value), calls)
      else
        var anonymous := CreateAnonymousSession(o.anonymous);
        var calls' := calls + anonymous.calls;
        if anonymous.value.Failure? then Run(Failure(anonymous.value.error), calls')
        else Run(Rethrown(o.getAfterAnonymous), calls' + [AccountGet])
  }

  /** `verifySession`: the current user, or null; never throws. */
  function VerifySession(o: Reply<User>): (r: Run<Option<User>>)
    ensures r.calls == [AccountGet]
    ensures r.value.Some? <==> o.Ok?
    ensures o.Ok? ==> r.value.value == o.value
  {
    match o
    case Ok(u) => Run(Some(u), [AccountGet])
    case Fail(_) => Run(None, [AccountGet])
  }

  // -------------------------------------------------------- validateSession

  datatype ValidateReplies = ValidateReplies(get: Reply<User>, list: Reply<SessionList>, update: Reply<Session>)

  /** The session can be refreshed: a first session is listed and refreshing it succeeds. */
  predicate Refreshable(o: ValidateReplies) {
    o.list.Ok? && HasFirstSession(o.list.value) && o.update.Ok?
  }

  /** `validateSession`: true for a live session, or after a 401 when the
      first listed session could be refreshed; every other failure is false.
      It never throws and never creates anything. */
  function ValidateSession(o: ValidateReplies): (r: Run<bool>)
    ensures |r.calls| > 0 && r.calls[0] == AccountGet
    ensures o.get.Ok? ==> r.value && r.calls == [AccountGet]
    ensures o.get.Fail? && o.get.code != Unauthorized ==> !r.value && r.calls == [AccountGet]
    ensures o.get.Fail? && o.get.code == Unauthorized ==> (r.value <==> Refreshable(o))
    ensures r.value <==> o.get.Ok? || (o.get.code == Unauthorized && Refreshable(o))
    ensures RefreshesOnlyFirst(r.calls, o.list)
    ensures CreatesNothing(r.calls)
  {
    match o.get
    case Ok(_) => Run(true, [AccountGet])
    case Fail(code) =>
      if code != Unauthorized then Run(false, [AccountGet])
      else
        match o.list
        case Fail(_) => Run(false, [AccountGet, AccountListSessions])
        case Ok(l) =>
          if !HasFirstSession(l) then Run(false, [AccountGet, AccountListSessions])
          else Run(o.update.Ok?, [AccountGet, AccountListSessions, AccountUpdateSession(l.sessions[0].id)])
  }

  // ------------------------------------------------- convertAnonymousSession

  /** `updateEmail` may resolve to a falsy value, hence the `Option`. */
  datatype ConvertReplies = ConvertReplies(updateEmail: Reply<Option<User>>, updateName: Reply<User>)

  /** `convertAnonymousSession`: attaches email and password to the current
      (anonymous) account in place, then its name. It never creates an account
      or a session: the backend session marker is kept. */
  function ConvertAnonymousSession(email: string, password: string, name: string, o: ConvertReplies)
    : (r: Run<Result<Option<User>>>)
    ensures |r.calls| > 0 && r.calls[0] == AccountUpdateEmail(email)
    ensures AccountUpdateName(name) in r.calls <==> o.updateEmail.Ok? && o.updateEmail.value.Some?
    ensures r.value.Success? ==> o.updateEmail.Ok? && r.value.value == o.updateEmail.value
    ensures r.value.Failure? <==>
      o.updateEmail.Fail? || (o.updateEmail.value.Some? && o.updateName.Fail?)
    ensures r.value.Failure? ==> r.value.error == Wrapped(ConversionFailed)
    ensures CreatesNothing(r.calls)
  {
    match o.updateEmail
    case Fail(_) => Run(Failure(Wrapped(ConversionFailed)), [AccountUpdateEmail(email)])
    case Ok(response) =>
      if response.None? then Run(Success(response), [AccountUpdateEmail(email)])
      else
        var calls := [AccountUpdateEmail(email), AccountUpdateName(name)];
        if o.updateName.Ok? then Run(Success(response), calls)
        else Run(Failure(Wrapped(ConversionFailed)), calls)
  }

  // ------------------------------------------------------------ OAuth token

  /** `getCurrentSession`: the current session, or null. */
  function GetCurrentSession(o: Reply<Session>): (r: Run<Option<Session>>)
    ensures r.calls == [AccountGetSession]
    ensures r.value.Some? <==> o.Ok?
    ensures o.Ok? ==> r.value.value == o.value
  {
    match o
    case Ok(s) => Run(Some(s), [AccountGetSession])
    case Fail(_) => Run(None, [AccountGetSession])
  }

  /** `isLoggedIn` */
  function IsLoggedIn(o: Reply<Session>): (r: Run<bool>)
    ensures r.value <==> o.Ok?
    ensures r.calls == [AccountGetSession]
  {
    var s := GetCurrentSession(o);
    Run(s.value.Some?, s.calls)
  }

  /** `signOut` deletes a session exactly when `isLoggedIn` would say true on
      the same lookup. */
  lemma SignOutDeletesIffLoggedIn(o: SignOutReplies)
    ensures AccountDeleteSession in SignOut(o).calls <==> IsLoggedIn(o.getSession).value
    ensures IsLoggedIn(o.getSession).value <==> GetCurrentSession(o.getSession).value.Some?
  {
  }

  /** A user `verifySession` returns makes `validateSession` true on the same
      read; the converse fails only through the 401 refresh. */
  lemma VerifiedSessionIsValid(o: ValidateReplies)
    ensures VerifySession(o.get).value.Some? ==> ValidateSession(o).value
    ensures ValidateSession(o).value && !(o.get.Fail? && o.get.code == Unauthorized) ==>
      VerifySession(o.get).value == Some(o.get.value)
  {
  }

  /** The session the middle rung refreshes is the first one `listSessions`
      reports, and it yields a user only when that listing is not empty. */
  lemma ReactivateUsesListedFirst(list: Reply<SessionList>, update: Reply<Session>, get: Reply<User>)
    ensures var l := ListSessions(list).value;
      forall c | c in Reactivate(list, update, get).calls && c.AccountUpdateSession? ::
        |l.sessions| > 0 && c.sessionId == l.sessions[0].id
    ensures Reactivate(list, update, get).value.Some? ==> ListSessions(list).value.total > 0
  {
  }

  datatype OAuthReplies = OAuthReplies(getSession: Reply<Session>, refresh: Reply<Session>)

  /** A GitHub session whose provider token expires within the refresh window. */
  predicate NeedsRefresh(s: Session, nowSeconds: int) {
    s.provider == "github" && s.providerAccessTokenExpiry - nowSeconds < RefreshWindowSeconds
  }

  /** `ensureValidOAuthToken`: refreshes a GitHub session whose token expires
      in under 300 seconds; every other session is returned as is. Never
      throws: a failed lookup or refresh yields null. `nowSeconds` is
      `Math.floor(Date.now() / 1000)`. */
  function EnsureValidOAuthToken(nowSeconds: int, o: OAuthReplies): (r: Run<Option<Session>>)
    ensures o.getSession.Fail? ==> r.value.None? && r.calls == [AccountGetSession]
    ensures !(o.getSession.Ok? && NeedsRefresh(o.getSession.value, nowSeconds)) ==>
      r.calls == [AccountGetSession]
    ensures o.getSession.Ok? && !NeedsRefresh(o.getSession.value, nowSeconds) ==>
      r.value == Some(o.getSession.value)
    ensures o.getSession.Ok? && NeedsRefresh(o.getSession.value, nowSeconds) ==>
      && r.calls == [AccountGetSession, AccountUpdateSession(o.getSession.value.id)]
      && (r.value.Some? <==> o.refresh.Ok?)
      && (o.refresh.Ok? ==> r.value == Some(o.refresh.value))
  {
    match o.getSession
    case Fail(_) => Run(None, [AccountGetSession])
    case Ok(s) =>
      if !NeedsRefresh(s, nowSeconds) then Run(Some(s), [AccountGetSession])
      else
        var calls := [AccountGetSession, AccountUpdateSession(s.id)];
        match o.refresh
        case Ok(s') => Run(Some(s'), calls)
        case Fail(_) => Run(None, calls)
  }

  /** The refresh rule is monotone in time: a session due for a refresh is
      still due later on. */
  lemma NeedsRefreshMonotone(s: Session, t1: int, t2: int)
    requires t1 <= t2 && NeedsRefresh(s, t1)
    ensures NeedsRefresh(s, t2)
  {
  }

  /** The window's edge: 299 seconds left is refreshed, 300 seconds left is not. */
  lemma RefreshWindowEdge(s: Session)
    requires s.provider == "github"
    ensures NeedsRefresh(s, s.providerAccessTokenExpiry - 299)
    ensures !NeedsRefresh(s, s.providerAccessTokenExpiry - 300)
  {
  }

  /** Once a check refreshes, every later check on the same replies refreshes
      too, with the same result. */
  lemma LaterCheckRefreshesToo(t1: int, t2: int, o: OAuthReplies)
    requires t1 <= t2
    requires o.getSession.Ok? && AccountUpdateSession(o.getSession.value.id) in EnsureValidOAuthToken(t1, o).calls
    ensures EnsureValidOAuthToken(t2, o) == EnsureValidOAuthToken(t1, o)
  {
  }

  /** Logged in, the token check gives null only when the refresh failed. */
  lemma OAuthNullMeansRefreshFailed(nowSeconds: int, o: OAuthReplies)
    requires IsLoggedIn(o.getSession).value
    ensures EnsureValidOAuthToken(nowSeconds, o).value.None? ==>
      NeedsRefresh(o.getSession.value, nowSeconds) && o.refresh.Fail?
  {
  }
}

=== FILE: signup_page.dfy ===
/** `src/app/signup/page.tsx`: the two sign-up handlers of the sign-up page.
    Each handler is a step over the page's view state that also records the
    SDK calls it made, the account it registers with the multi-account
    context, and where it sends the browser. */
module SignUpPage {
  import opened Js
  import opened Backend
  import SessionApi
  import AuthContext

  const MaxAccountsMessage := "Maximum number of accounts (3) reached. Please remove an account before adding a new one."
  const SignUpFailedMessage := "Failed to create account. Email may already be in use."
  const DashboardRoute := "/dashboard"
  const GitHubOAuthRoute := "/api/auth/github"

  /** The page's state, plus the auth context's `isAnonymous` flag the handler
      lowers. `location` is where the page navigated to, if anywhere. */
  datatype SignUpView = SignUpView(
    error: Option<string>,
    isLoading: bool,
    isAnonymous: bool,
    location: Option<string>)

  datatype SignUpForm = SignUpForm(name: string, email: string, password: string)

  /** The replies of whichever backend path the handler takes. */
  datatype SignUpPageReplies = SignUpPageReplies(
    convert: SessionApi.ConvertReplies,
    signUp: SessionApi.SignUpReplies)

  datatype SignUpStep = SignUpStep(
    view: SignUpView,
    added: seq<AuthContext.UserAccount>,
    calls: seq<Call>)

  /** What the chosen backend path resolved to: a possibly falsy user, or the
      error it threw. */
  function Response(form: SignUpForm, isAnonymous: bool, o: SignUpPageReplies): (r: Run<Result<Option<User>>>)
    ensures isAnonymous ==>
      r == SessionApi.ConvertAnonymousSession(form.email, form.password, form.name, o.convert)
    ensures !isAnonymous ==> r.calls == SessionApi.SignUp(form.email, form.password, form.name, o.signUp).calls
    ensures !isAnonymous ==>
      var s := SessionApi.SignUp(form.email, form.password, form.name, o.signUp).value;
      (r.value.Success? <==> s.Success?) && (s.Success? ==> r.value.value == Some(s.value))
  {
    if isAnonymous then SessionApi.ConvertAnonymousSession(form.email, form.password, form.name, o.convert)
    else
      var s := SessionApi.SignUp(form.email, form.password, form.name, o.signUp);
      match s.value
      case Success(u) => Run(Success(Some(u)), s.calls)
      case Failure(e) => Run(Failure(e), s.calls)
  }

  /** `handleSignUp`: refuses once the account limit is reached; otherwise
      converts the anonymous session in place (when there is one) or signs up
      afresh, registers the resulting account, and goes to the dashboard. A
      backend error shows a fixed message. Loading always ends. */
  function HandleSignUp(v: SignUpView, hasMaxAccounts: bool, form: SignUpForm, o: SignUpPageReplies)
    : (r: SignUpStep)
    ensures !r.view.isLoading
    ensures hasMaxAccounts ==>
      r == SignUpStep(SignUpView(Some(MaxAccountsMessage), false, v.isAnonymous, v.location), [], [])
    // exactly one backend path is taken: conversion for an anonymous user, sign-up otherwise
    ensures !hasMaxAccounts && v.isAnonymous ==>
      |r.calls| > 0 && r.calls[0] == AccountUpdateEmail(form.email) && CreatesNothing(r.calls)
    ensures !hasMaxAccounts && !v.isAnonymous ==>
      |r.calls| > 0 && r.calls[0] == AccountCreate(form.email, form.name)
      && AccountUpdateEmail(form.email) !in r.calls
    // the anonymous flag is lowered only by a conversion that did not throw
    ensures r.view.isAnonymous != v.isAnonymous <==>
      !hasMaxAccounts && v.isAnonymous && Response(form, true, o).value.Success?
    // a truthy response registers exactly its account, active, then navigates
    ensures r.view.location != v.location ==> r.view.location == Some(DashboardRoute)
    ensures !hasMaxAccounts ==>
      var res := Response(form, v.isAnonymous, o).value;
      && (res.Success? && res.value.Some? <==> r.view.location == Some(DashboardRoute) && r.added != [])
      && (res.Success? && res.value.Some? ==> r.added == [AuthContext.AccountFor(res.value.value)] && r.view.error.None?)
      && (res.Success? && res.value.None? ==> r.added == [] && r.view.location == v.location && r.view.error.None?)
      && (res.Failure? ==> r.view.error == Some(SignUpFailedMessage) && r.added == [] && r.view.location == v.location)
  {
    if hasMaxAccounts then SignUpStep(SignUpView(Some(MaxAccountsMessage), false, v.isAnonymous, v.location), [], [])
    else
      var response := Response(form, v.isAnonymous, o);
      match response.value
      case Failure(_) => SignUpStep(SignUpView(Some(SignUpFailedMessage), false, v.isAnonymous, v.location), [], response.calls)
      case Success(u) =>
        var isAnonymous := false;
        match u
        case None => SignUpStep(SignUpView(None, false, isAnonymous, v.location), [], response.calls)
        case Some(user) =>
          SignUpStep(SignUpView(None, false, isAnonymous, Some(DashboardRoute)), [AuthContext.AccountFor(user)], response.calls)
  }

  /** A sign-up that completes registers an account that is active and carries
      the new user's id, whichever path produced it. */
  lemma SignUpRegistersNewUser(v: SignUpView, form: SignUpForm, o: SignUpPageReplies)
    requires !v.isAnonymous && o.signUp.create.Ok?
    ensures var r := HandleSignUp(v, false, form, o);
      && r.added == [AuthContext.AccountFor(o.signUp.create.value)]
      && r.view.location == Some(DashboardRoute)
      && AccountCreateVerification in r.calls
  {
  }

  /** `handleGitHubSignUp`: refuses once the account limit is reached,
      otherwise redirects to the OAuth entry point. */
  function HandleGitHubSignUp(v: SignUpView, hasMaxAccounts: bool): (r: SignUpView)
    ensures hasMaxAccounts ==> r.error == Some(MaxAccountsMessage) && r.location == v.location
    ensures !hasMaxAccounts ==> r.location == Some(GitHubOAuthRoute) && r.error == v.error
    ensures r.isLoading == v.isLoading && r.isAnonymous == v.isAnonymous
  {
    if hasMaxAccounts then v.(error := Some(MaxAccountsMessage))
    else v.(location := Some(GitHubOAuthRoute))
  }

  /** Both handlers honour the account limit the same way: neither leaves the
      page, and both show the same message. */
  lemma AccountLimitBlocksBothPaths(v: SignUpView, form: SignUpForm, o: SignUpPageReplies)
    ensures HandleSignUp(v, true, form, o).view.location == HandleGitHubSignUp(v, true).location == v.location
    ensures HandleSignUp(v, true, form, o).view.error == HandleGitHubSignUp(v, true).error
    ensures HandleSignUp(v, true, form, o).calls == []
  {
  }
}
